=== FILE: README.md ===
# wotbot decision logic in Dafny

A model of the decision logic of wotbot, a Telegram bot that shows World of
Tanks player statistics. The bot looks a player up by nickname through the
Wargaming account-list API. It scrapes the player's XVM statistics page. It
can capture each statistic's trend chart with a remote headless browser. It
stores a per-user snapshot of those statistics in Postgres and answers
commands in chats. Every external exchange enters the model as an input: the
HTTP replies, the parsed HTML anchors, the browser's behaviour, the Telegram
send call and the database failure points. Every model function is pure and
returns the new state alongside the answer.

Modules, in dependency order:

- `Wrappers`: `Option` and `Result`.
- `Text`: the string operations the bot relies on. They cover prefix, suffix
  and substring tests, replacing the first occurrence of a character, case
  folding for Latin and Cyrillic letters, and decimal formatting of integers.
- `Domain`: the error kinds as an enum, so `errors.Is` is equality. Also the
  `User`, `Stat` and `Player` records.
- `Store`: the database adapter. The users table is a map keyed by
  telegram_id. The stats table is a sequence of rows. The replace runs as a
  transaction (`Tx`) with injected failure points.
- `Xvm`: the page scraper and the trend-capture planner of the XVM adapter.
- `Wargaming`: the player lookup.
- `Kttc`: the KTTC client's five colour bands per metric.
- `Service`: the six use cases of the domain service. Each use case records
  the calls it made (`Event`) and returns the store it leaves behind.
- `HumanErrors`: the human-readable error wrapper.
- `Telegram`: command dispatch, argument checks, each handler's error-to-text
  table, the error reply and the auto-delete rule. As in the adapter, the
  front end sees the domain service only through its interface
  (`ServiceApi`), and records the calls it makes through it. `ServiceAt`
  plugs the `Service` model in behind that interface.

## Model

| member | source | states |
|---|---|---|
| Store.GetUserByTelegramID | internal/infra/database/adapter.go:58-76 | Succeeds exactly when the query does not fail and a user has the telegram_id, and then returns that user. Every failure is InternalDatabase or UserNotFound. UserNotFound requires that no such user exists. |
| Store.UpsertUser | internal/infra/database/adapter.go:78-101 | On failure the store is unchanged and the result is InternalDatabase. Otherwise exactly the user row for the telegram_id changes, and the stats are untouched. An unknown telegram_id gets a new row with the given nickname and account. A known one keeps its id, and each of nickname and wargaming_id takes the new value only when that value is non-null. The row is returned. |
| Store.UpsertThenGetUser | internal/infra/database/adapter.go:58-101 | An upsert keeps every user keyed by its own telegram_id. A lookup straight after it returns exactly the row the upsert returned. |
| Store.UpsertIdempotent | internal/infra/database/adapter.go:79-81 | Repeating the same upsert leaves both tables as they were and returns the same row. The id counter is not a sequence here (see Left out). |
| Store.RowsOf | internal/infra/database/adapter.go:104 | Every row selected by user_id is owned by that user, and the selection is no longer than the table. |
| Store.RowsNotOf | internal/infra/database/adapter.go:141 | Every row a DELETE by user_id keeps belongs to another user. |
| Store.SelectionMembers | internal/infra/database/adapter.go:104-141 | The SELECT by user_id keeps exactly the stored rows owned by that user. The DELETE keeps exactly the rows of other users. |
| Store.RowsOfAppend | internal/infra/database/adapter.go:152-155 | Selecting a user's rows distributes over appending rows. |
| Store.RowsOfAfterDelete | internal/infra/database/adapter.go:141 | After the DELETE, the deleted user has no rows and every other user's rows are as before. |
| Store.RowsOfOwnedBatch | internal/infra/database/adapter.go:148-155 | A batch tagged with one user contributes all its rows to that user and none to any other. |
| Store.SetUserId | internal/infra/database/adapter.go:147-150 | Every stat gets the given user_id, and no other field changes. |
| Store.AssignIds | internal/infra/database/adapter.go:152-155 | The inserted rows get consecutive engine-assigned ids, and no other field changes. |
| Store.GetStatsByUserID | internal/infra/database/adapter.go:103-124 | Fails, with InternalDatabase, exactly when the query fails. Otherwise it returns the selection of the user's rows in storage order: exactly the stored rows owned by the user. |
| Store.Begin | internal/infra/database/adapter.go:127-139 | A transaction that is rolled back or committed straight after it begins leaves the store as it was. |
| Store.DeleteStats | internal/infra/database/adapter.go:141-145 | Inside the transaction the user loses all their rows, and every other user's rows and the users table stay as they were. A rollback still restores the store the transaction began from. |
| Store.InsertStats | internal/infra/database/adapter.go:152-159 | Inside the transaction the batch is appended after the existing rows, numbered from the next free id, and the counter advances by the batch size. A rollback still restores the store the transaction began from. |
| Store.RollbackAndCommit | internal/infra/database/adapter.go:127-165 | A rollback after the begin, the delete or the insert gives back the store the transaction began from (Store.Rollback). A commit after the delete and the insert publishes exactly the user's tagged batch as their rows, with the users table unchanged (Store.Commit). |
| Store.UpdateStatsByUserID | internal/infra/database/adapter.go:126-187 | Succeeds exactly when no step fails, and every failure is InternalDatabase. A delete or insert failure is undone by the deferred rollback. A failed begin changes nothing. A failed commit is modelled as committing nothing. The users table never changes. A success returns exactly what the re-read returns. |
| Store.CommittedTable | internal/infra/database/adapter.go:141-165 | After a commit, the stats table holds the other users' rows in their order, followed by the new batch tagged with the user and numbered by the engine. |
| Store.CommittedRowsOfUser | internal/infra/database/adapter.go:141-165 | After a commit, selecting the user's rows gives exactly the inserted batch. |
| Store.BatchRows | internal/infra/database/adapter.go:147-155 | The inserted batch has one row per given stat, in order, each with the user's id, a consecutive row id, and every other field as given. |
| Store.SnapshotReplaced | internal/infra/database/adapter.go:141-170 | After a commit, including one whose re-read then fails, the user's rows are exactly the given stats in order. Each carries the user's id and a fresh row id. |
| Store.OtherUsersUntouched | internal/infra/database/adapter.go:141-155 | Whatever step fails, every other user's rows are unchanged. |
| Store.LastReplaceWins | internal/infra/database/adapter.go:126-187 | After two successful replaces, the user's rows are exactly the second batch. |
| Xvm.PlayerPageUrl | internal/infra/xvm/adapter.go:33 | The page URL is the XVM player prefix followed by the account id in decimal. |
| Xvm.PlayerPageUrlInjective | internal/infra/xvm/adapter.go:33 | Different account ids give different page URLs. |
| Xvm.Linked | internal/infra/xvm/adapter.go:57-61 | The kept anchors are exactly those that have an href, in document order. |
| Xvm.LinkedAppend | internal/infra/xvm/adapter.go:57-68 | Filtering anchors distributes over concatenation, which is what lets the scan proceed one anchor at a time. |
| Xvm.ExtractStats | internal/infra/xvm/adapter.go:56-68 | The loop yields one stat per anchor with an href, in document order. Each stat has the href as HtmlID, the .h5 text as name and the .h2 text as value. |
| Xvm.BuildTasks | internal/infra/xvm/adapter.go:70-80 | The task list is the 1920x7666 viewport, then navigation to the player's page URL, then one screenshot per stat in stat order. Its length is 2 + the number of stats. |
| Xvm.DebuggerUrl | internal/infra/xvm/adapter.go:102-147 | Succeeds exactly when discovery returned exactly one target, and then returns that target's URL. Everything else is InternalXVM. |
| Xvm.Perform | internal/infra/xvm/adapter.go:93-96 | The run yields images exactly when no task errors at the failure point and every task can complete: navigation loads the page and each screenshot's element is visible. |
| Xvm.Execute | internal/infra/xvm/adapter.go:82-96 | The run yields images exactly when the remote session opens, no task is interrupted and every task can complete. |
| Xvm.PerformScreenshots | internal/infra/xvm/adapter.go:93-96 | A run of screenshot tasks succeeds exactly when no task is interrupted and every selector is visible. It then captures each selector's image, in order. |
| Xvm.CapturePlan | internal/infra/xvm/adapter.go:70-96 | Running the planned tasks succeeds exactly when the session opens, no task is interrupted, the page loads and every stat's element is visible. It then yields each element's image. |
| Xvm.GetStats | internal/infra/xvm/adapter.go:32-100 | Always fetches the player's page first, and every failure is InternalXVM. Without trend, nothing else is contacted and the scraped list is returned. With trend, a discovery failure, or a target count other than one, ends the call after the discovery with InternalXVM and no task run. Otherwise the tasks go to the discovered URL and navigate to the fetched page's URL. The call succeeds exactly when the session opens, no task is interrupted, the page loads and every element is visible, so there is no partial image set. On success each stat carries its own element's image. |
| Wargaming.SearchRequest | internal/infra/wargaming/adapter.go:29-42 | The request goes to the account-list URL with application_id set to the configured id and search set to the typed nickname. |
| Wargaming.FirstMatch | internal/infra/wargaming/adapter.go:68-72 | Finds the first player, in API order, whose nickname equals the query ignoring case, or reports that none does. |
| Wargaming.FindPlayer | internal/infra/wargaming/adapter.go:28-75 | A transport, decoding or non-"ok" status problem gives InternalWargaming before any matching. Otherwise the result is the first case-insensitive match, spelled as the API returns it, or PlayerNotFound exactly when nothing matches. |
| Wargaming.FindsTypedVariant | internal/infra/wargaming/adapter.go:68-72 | Typing a listed nickname in any letter case finds a player spelled the same up to case. |
| Text.Lower | internal/infra/wargaming/adapter.go:69 | Lower-casing keeps the length and maps every character by the one-character rule: Latin and Cyrillic capitals and Ё go to their small letters, and everything else is kept. |
| Text.EqualFoldIgnoresCase | internal/infra/wargaming/adapter.go:69 | Comparing lower-cased nicknames ignores the case of either side. |
| Text.LowerIdempotent | internal/infra/wargaming/adapter.go:69 | Lower-casing twice is lower-casing once. |
| Text.ReplaceFirst | internal/domain/infra.go:166-177 | Only the first occurrence of the character is replaced, and the length is kept. A text without the character is unchanged. |
| Text.ContainsIffOccurs | internal/infra/telegram/handlers.go:58 | The substring test holds exactly when the substring occurs at some position. |
| Text.DecimalRoundTrip | internal/infra/xvm/adapter.go:33 | The decimal digits of a natural number read back to that number. |
| Text.IntToDecimalInjective | internal/infra/xvm/adapter.go:33 | Different integers print differently. |
| Kttc.Classify | internal/infra/kttc/adapter.go:71-82 | A colour is picked only when the value lies in that colour's half-open band. Below the first threshold it is red, because no lower bound is checked. With ascending thresholds some colour is always picked. |
| Kttc.ColorOf | internal/infra/kttc/adapter.go:72-82 | A colour read back from a colour field is the colour whose emoji the field holds. |
| Kttc.GlyphRoundTrip | internal/infra/kttc/adapter.go:72-82 | Each colour's emoji reads back as that colour, and the empty field reads as no colour, so the five emoji are distinct and non-empty. |
| Kttc.Entry | internal/infra/kttc/adapter.go:65-84 | One metric's line carries its name, figure and delta. Its colour field reads back as exactly the colour the switch picks, and stays empty when no case matches. |
| Kttc.BandsDisjoint | internal/infra/kttc/adapter.go:71-166 | With ascending thresholds, a value lies in a colour's band exactly when that colour is the one picked. |
| Kttc.ClassifyMonotone | internal/infra/kttc/adapter.go:71-166 | A higher value never gets a lower-ranked colour. |
| Kttc.ThresholdsAscend | internal/infra/kttc/adapter.go:71-166 | Every metric's four thresholds ascend, so every value gets exactly one colour. |
| Kttc.GetStats | internal/infra/kttc/adapter.go:27-175 | Succeeds exactly when the envelope reports success and holds the "1000" window, and every failure is InternalKTTC. The output is five lines in the order WN8, WTR, win rate, average damage, hit rate. Each line has its metric's value and delta, with WTR converted from an integer. Each line's colour field holds the heart emoji of a colour whose band holds the value. |
| Service.Valued | internal/domain/infra.go:163-164 | Every statistic kept has a value. |
| Service.Unvalued | internal/domain/infra.go:175-176 | Every statistic kept has no value. |
| Service.FiltersPartition | internal/domain/infra.go:163-176 | The two loops split the statistics: a statistic is written as a value line exactly when it has a value, and as a vehicle line exactly when it has none. Together they cover every statistic once. |
| Service.ValueLines | internal/domain/infra.go:163-171 | The loop writes one line per valued statistic, in order. In private chats each line also carries the chart command. |
| Service.VehicleLines | internal/domain/infra.go:173-180 | The vehicle loop writes one line per statistic without a value, in order. |
| Service.ConcatEndsWithNewline | internal/domain/infra.go:220-225 | Lines that each end in a newline concatenate to a text ending in one. |
| Service.NewlineEndIsNoNotice | internal/domain/infra.go:227-228 | A text ending in a newline does not end with the no-statistics notice, which ends in a full stop. |
| Service.ValueLinesEndWithNewline | internal/domain/infra.go:220-225 | Every value line, with or without its chart command, ends in a newline. |
| Service.StatsBodyEndsWithNewline | internal/domain/infra.go:220-225 | The /get header followed by the value lines always ends in a newline. |
| Service.GetCreateUserMessage | internal/domain/infra.go:52-74 | Makes only the upsert, with no nickname. It fails, with InternalDatabase and the store unchanged, exactly when the upsert fails; otherwise the store is the upsert's. The greeting is appended exactly when the upserted user has a saved nickname, and it names that nickname. A nickname saved earlier is never cleared. |
| Service.GetSaveNicknameMessage | internal/domain/infra.go:76-116 | The calls are lookup, upsert, fetch with trend, user read and stats replace, in that order, and the first failing call's error is returned unchanged with nothing after it run. A failed lookup or upsert leaves the store as it was. Once the upsert has run, a failed fetch or user read leaves the upserted store, and the replace's own outcome decides the rest: success exactly when the replace succeeds, with the store the replace leaves. The stored nickname and account id are the ones the lookup returned, not the typed text. |
| Service.SaveFetched | internal/domain/infra.go:95-115 | After the upsert: the fetch with trend, the user read and the replace, in order. Each failure is returned unchanged with the store as given, except that the replace leaves its own store. The call succeeds exactly when the replace succeeds, and then says the nickname is saved. |
| Service.SaveReplacesSnapshot | internal/domain/infra.go:98-113 | After a successful save, the user's stored stats are exactly the list fetched with trend, in order, each owned by the user. |
| Service.SavePartialEffect | internal/domain/infra.go:83-102 | A fetch failure after the upsert leaves the new nickname saved and the old stats in place, because the save is not atomic. |
| Service.GetRefreshMessage | internal/domain/infra.go:118-142 | A failed user read returns its error with the store unchanged. A user without a saved account gets NicknameNotSaved with nothing fetched or written. Otherwise the calls are read, fetch with trend, then replace. A failed fetch returns its error and changes nothing. After a fetch the call succeeds exactly when the replace does, every failure is InternalDatabase, and the store is the one the replace leaves. The only fetch is made with trend. |
| Service.RefreshReplacesSnapshot | internal/domain/infra.go:130-139 | After a successful refresh, the user's stored stats are exactly the fetched list and every other user's stats are as they were. |
| Service.GetMeMessage | internal/domain/infra.go:144-183 | Only reads. A failed user read or stats read returns its error unchanged after that call. With both reads working, the call succeeds exactly when the user has both a nickname and an account, and otherwise gives NicknameNotSaved. On success the message is the header for the saved player followed by the /me body of the user's stored stats. |
| Service.MeBody | internal/domain/infra.go:162-182 | Outside private chats the body is one value line for each valued statistic, in order, with no vehicle section. In private chats each value line carries its chart command, and the vehicle header follows with one line for each statistic without a value. |
| Service.FirstWithHtmlId | internal/domain/infra.go:198-202 | Finds the first stored statistic with the requested anchor id, or reports that none has it. |
| Service.GetTrendImage | internal/domain/infra.go:185-205 | Only reads. A failed user read or stats read returns its error unchanged after that call. With both reads working, it succeeds exactly when one of the user's stored stats has the anchor id, and otherwise gives TrendImageNotFound. On success it returns the image of the first such stat. |
| Service.GetStatsMessage | internal/domain/infra.go:207-232 | Looks the player up, then fetches only without trend. A failed lookup or fetch returns its error unchanged, and a successful fetch always gives a message. The message is exactly the header with the canonical nickname, one line per valued statistic in order, and the no-statistics notice only when the fetched list is empty. |
| Service.StatsText | internal/domain/infra.go:220-229 | The message is exactly the header, one line per valued statistic in order, and then the no-statistics notice only when the list is empty. It ends with the notice exactly when the list is empty. |
| Service.MeOpensWithSavedPlayer | internal/domain/infra.go:144-183 | For a user with a saved nickname and account, /me with working reads succeeds and opens with that nickname and the account's page link. |
| Service.SaveThenMe | internal/domain/infra.go:76-183 | After a successful save, /me, with working database reads, succeeds and opens with the saved canonical nickname and that account's page link. |
| Service.SaveThenStart | internal/domain/infra.go:52-116 | After a successful save, /start with a working upsert greets the user by the canonical nickname the lookup returned. |
| HumanErrors.NewHRError | internal/infra/telegram/errors.go:15-30 | The wrapper returns the human text and the cause it was built with. |
| HumanErrors.Human | internal/infra/telegram/errors.go:24-26 | The human text, together with the wrapped error, rebuilds the wrapper it came from. |
| HumanErrors.CauseOf | internal/infra/telegram/errors.go:28-30 | The wrapped error, together with the human text, rebuilds the wrapper it came from. |
| HumanErrors.ErrorString | internal/infra/telegram/errors.go:20-22 | The error text is the wrapped error's message. |
| HumanErrors.ErrorIgnoresHuman | internal/infra/telegram/errors.go:15-30 | The error text does not depend on the human text. Taking a wrapper apart and rebuilding it gives the same wrapper. |
| HumanErrors.ErrorIsNotHuman | internal/infra/telegram/errors.go:20-22 | For the missing-nickname wrapper, the error text is "bot bad request" and differs from the human text. |
| Telegram.Dispatch | internal/infra/telegram/handlers.go:45-61 | Each of the five built-in commands goes to its own handler. Any other command goes to the trend handler exactly when it ends in "Trend" or contains "ByVehicle". Otherwise nothing runs. |
| Telegram.TrendKey | internal/infra/telegram/handlers.go:197 | The lookup key is "#" followed by the command. |
| Telegram.AnchorBecomesCommand | internal/domain/infra.go:166-177 | The chart command printed for the anchor id "#"+name is "/"+name. |
| Telegram.TrendNamesDispatchToTrend | internal/infra/telegram/handlers.go:45-61 | A command ending in "Trend" or containing "ByVehicle" goes to the trend handler. |
| Telegram.ChartCommandRoundTrip | internal/infra/telegram/handlers.go:57-59 | A chart command that /me prints for an anchor "#"+name dispatches to the trend handler, which looks up exactly that anchor again. |
| Telegram.ShortNamesAreNotTrend | internal/infra/telegram/handlers.go:45-58 | No built-in command name (start, get, save, me, refresh) ends in "Trend" or contains "ByVehicle". |
| Telegram.Humanize | internal/infra/telegram/handlers.go:91-101 | The handler's error kinds are checked in a fixed order. The first match gives the text, and with no match the text is "Произошла неизвестная ошибка!". |
| Telegram.Respond | internal/infra/telegram/handlers.go:64-82 | A service error becomes the handler's human-readable error and nothing is sent. Otherwise the reply is sent, and a failed send becomes "Невозможно отправить сообщение!" wrapping the send's error. |
| Telegram.HandleStart | internal/infra/telegram/handlers.go:64-82 | Makes the one service call for the sender. It maps the error through the /start table, or sends the text as HTML to the chat. |
| Telegram.HandleGet | internal/infra/telegram/handlers.go:84-112 | With no arguments it gives BotBadRequest and "Никнейм не передан!" without calling the service. Otherwise the service error is mapped through the /get table. |
| Telegram.HandleSave | internal/infra/telegram/handlers.go:114-145 | With no arguments it gives BotBadRequest and "Никнейм не передан!" without calling the service. Otherwise the service error is mapped through the /save table. |
| Telegram.HandleRefresh | internal/infra/telegram/handlers.go:147-171 | Makes the one service call for the sender. It maps the error through the /refresh table, or sends the text. |
| Telegram.HandleMeWith | internal/infra/telegram/handlers.go:173-194 | Passes the chat type to the service, then maps its error through the given table or sends its text. |
| Telegram.HandleTrendWith | internal/infra/telegram/handlers.go:196-219 | Asks for the image under "#"+command and uploads it as a photo named after the command. Otherwise the error is mapped through the given table. |
| Telegram.HandleMeAsWritten | internal/infra/telegram/handlers.go:173-184 | With the table as written, a NicknameNotSaved from the service reaches the user as "Произошла неизвестная ошибка!". |
| Telegram.HandleTrendAsWritten | internal/infra/telegram/handlers.go:196-207 | With the table as written, a TrendImageNotFound from the service reaches the user as "Произошла неизвестная ошибка!". |
| Telegram.HandleMe | internal/infra/telegram/handlers.go:173-184 | It is the /me handler run with the corrected table. With the corrected table, NicknameNotSaved reads "Сначала сохрани свой никнейм!" and a database error reads the database text. |
| Telegram.HandleTrend | internal/infra/telegram/handlers.go:196-207 | It is the trend handler run with the corrected table. With the corrected table, TrendImageNotFound reads "График не найден!" and a database error reads the database text. |
| Telegram.ServiceAtErrors | internal/domain/infra.go:144-205 | Behind the interface, the service's /me fails only with a database error, an unknown user or NicknameNotSaved. The trend lookup fails only with a database error, an unknown user or TrendImageNotFound. |
| Telegram.MeTablesOverMeErrors | internal/infra/telegram/handlers.go:173-184 | Given those /me errors, the as-written chart-not-found branch never fires. The corrected table gives every error except an unknown user its own text. |
| Telegram.TrendTablesOverTrendErrors | internal/infra/telegram/handlers.go:196-207 | Given those trend errors, the as-written save-your-nickname branch never fires. The corrected table gives every error except an unknown user its own text. |
| Telegram.MeAsWrittenHidesNicknameNotSaved | internal/infra/telegram/handlers.go:176-183 | For a registered user without a saved account, the /me handler as written says "Произошла неизвестная ошибка!". The corrected one says "Сначала сохрани свой никнейм!". |
| Telegram.TrendAsWrittenHidesMissingChart | internal/infra/telegram/handlers.go:199-206 | For a chart the user has not stored, the trend handler as written gives the generic text, because it has no TrendImageNotFound branch. The corrected one says "График не найден!". |
| Telegram.RunHandler | internal/infra/telegram/handlers.go:45-61 | A command that dispatches nowhere runs nothing. /get and /save without arguments are refused without a service call. Every other command makes exactly its one service call, with the sender's id, the arguments or the chat type as that call needs. A trend command asks for "#"+command. |
| Telegram.ErrorReply | internal/infra/telegram/handlers.go:221-243 | A missing update, a missing error, or an error that is not human-readable sends nothing. A human-readable error is sent as plain text to the update's chat, and a failed send leaves no message. |
| Telegram.Conclude | internal/infra/telegram/handlers.go:22-43 | A handler error is followed by its human text as plain text to the chat. Deletion of both the user's message and the bot's last message is scheduled exactly when the chat is a supergroup and a message went out. |
| Telegram.Route | internal/infra/telegram/handlers.go:12-62 | Updates without a message, or whose command dispatches nowhere, do nothing. Deletion is scheduled exactly when the chat is a supergroup and a message went out. The /me and trend handlers are the corrected ones (see Findings). |
| Telegram.EmptyNicknameRefused | internal/infra/telegram/handlers.go:85-87 | Routing /get or /save without a nickname makes no service call and sends only "Никнейм не передан!". |

## Left out

- HTTP requests, timeouts, JSON decoding, HTML parsing, DNS resolution of the devtools host, and the chromedp run are external. Their outcomes are inputs: `Xvm.Page`, `Xvm.Discovery`, `Xvm.Browser`, `Wargaming.Reply`, `Kttc.Reply`, and the service's `findPlayer` and `fetchStats` functions.
- SQL text, connection pooling, migrations and the created_at/updated_at timestamps are not modelled. The store is abstract. A SELECT without ORDER BY is modelled as returning rows in storage order.
- Store.GetUserByTelegramID: how sqlx reports a missing row is not visible. The `noRowDetected` input chooses between UserNotFound and InternalDatabase for an unknown telegram_id.
- Store.UpsertUser: a scan failure after the write is modelled as a failed statement, so the model leaves the store unchanged where the source has already written the row. The scan targets are the six RETURNING columns, which all map to tagged fields of the user record.
- Store.GetStatsByUserID: an error in the middle of iterating the result set is not modelled. The read loops stop when `rows.Next()` returns false and never check `rows.Err()`, so the source would return the rows read so far as a success. The same holds for the re-read at the end of `Store.UpdateStatsByUserID`. The model's successful read is always the full selection.
- Store.UpsertUser / Store.UpdateStatsByUserID: the id counters are not Postgres sequences. A sequence is not transactional: a rolled-back insert and an upsert that hits its conflict still consume ids. The model advances `nextUserId` only when a user is inserted and restores `nextStatId` on rollback, so a failed replace or a repeated upsert leaves the counters as they were. No bot behaviour depends on id values.
- Store.UpdateStatsByUserID: the batched insert of an empty list may fail in sqlx. That case falls under the injected insert failure, which is not restricted.
- The per-update goroutine, the polling loop, the 10-second delay before deletion, the delete call itself, panic recovery and logging are not modelled. Route returns the scheduled deletion as data.
- The front end holds the domain service behind an interface. Its handlers are therefore modelled over any `ServiceApi`, and say which calls they make rather than how the store changes. The Findings lemmas instantiate the interface with the service model through `ServiceAt`.
- Telegram command parsing (splitting "/cmd@bot args") is external. `Telegram.Message` carries the command and the arguments already split.
- Kttc.Classify: the float64 values are reals. NaN is not modelled; with NaN no case matches and the colour stays empty. Binary rounding at decimal thresholds such as 49.2 is not modelled either.
- Kttc.GetStats: a null DELTA entry is not modelled. The deltas are plain reals. A null "1000" entry is not represented either: `Reply` holds a window's figures or no window.
- Text.Lower: only ASCII and the basic Cyrillic letters, including Ё, are folded, not all of Unicode. Nicknames are Latin, digits and underscore, so this covers the names the lookup compares.
- The process wiring is not modelled: main.go, the configuration files and the Wargaming error type's formatting.
- The source has mismatches between revisions. The model follows their evident intent:
  - `Stat.Value` is an optional string, and there is a single image field.
  - The insert stores the Stat fields; the `:type` and `:img` bindings are not modelled.
  - The /me handler passes the chat type to the service, whose signature takes one.
  - The KTTC types are local to `Kttc`.
- The scraper extracts only the summary anchors, so no vehicle-chart section is scraped and every extracted stat has a value. One failed screenshot fails the whole capture, so there is no partial image set.
- Xvm.Browser: the ten-second deadline shared by the whole browser run is not a clock. The `failsAt` input names the task during which the run errors, whatever its cause.

## Findings

| source | as written | input that shows it | evidently intended | confidence | as-written member | corrected member |
|---|---|---|---|---|---|---|
| internal/infra/telegram/handlers.go:176-178 | handleMe tests for ErrTrendImageNotFound, which GetMeMessage never returns, and has no ErrNicknameNotSaved branch | /me from a registered user who has not saved a nickname: GetMeMessage returns ErrNicknameNotSaved and the user reads "Произошла неизвестная ошибка!" | test ErrNicknameNotSaved and answer "Сначала сохрани свой никнейм!" | high; not executed | Telegram.HandleMeAsWritten, Telegram.MeAsWrittenHidesNicknameNotSaved, Telegram.MeTablesOverMeErrors | Telegram.HandleMe |
| internal/infra/telegram/handlers.go:199-201 | handleTrend tests for ErrNicknameNotSaved, which GetTrendImage never returns, and has no ErrTrendImageNotFound branch | a trend command for an anchor id the user has no stored stat for: GetTrendImage returns ErrTrendImageNotFound and the user reads "Произошла неизвестная ошибка!" | test ErrTrendImageNotFound and answer "График не найден!" | high; not executed | Telegram.HandleTrendAsWritten, Telegram.TrendAsWrittenHidesMissingChart, Telegram.TrendTablesOverTrendErrors | Telegram.HandleTrend |

=== FILE: domain.dfy ===
/** The bot's domain vocabulary: the error kinds every layer reports, and the
    two entities it stores, the chat user and one scraped statistic. */
module Domain {
  import opened Wrappers

  newtype uint8 = x: int | 0 <= x < 256

  /** Raw screenshot bytes; Go's nil slice is the empty sequence. */
  type Image = seq<uint8>

  /** The sentinel errors of the domain package. Every layer returns one of these
      values unwrapped, so `errors.Is(err, ErrX)` is equality with `X`. */
  datatype Error =
    | InternalDatabase
    | InternalWargaming
    | InternalXVM
    | InternalKTTC
    | BotBadRequest
    | PlayerNotFound
    | UserNotFound
    | NicknameNotSaved
    | TrendImageNotFound

  /** The message each sentinel error carries. */
  function ErrorText(e: Error): string {
    match e
    case InternalDatabase => "internal database error"
    case InternalWargaming => "internal Wargaming API error"
    case InternalXVM => "internal XVM stats error"
    case InternalKTTC => "internal KTTC stats error"
    case BotBadRequest => "bot bad request"
    case PlayerNotFound => "player not found"
    case UserNotFound => "user not found"
    case NicknameNotSaved => "nickname not saved"
    case TrendImageNotFound => "trend image not found"
  }

  /** A chat user: the row of the users table. A user who has not saved a
      nickname has neither nickname nor Wargaming account id. */
  datatype User = User(id: int, telegramId: int, nickname: Option<string>, wargamingId: Option<int>)

  /** One statistic of a player: a displayed value (absent for image-only
      entries), the page anchor it was scraped from, and its trend screenshot.
      `userId` is the owning user once the statistic is stored. */
  datatype Stat = Stat(id: int, userId: int, name: string, value: Option<string>, htmlId: string, image: Image)

  /** A player as the identity lookup reports it: canonical nickname and account id. */
  datatype Player = Player(nickname: string, accountId: int)
}

=== FILE: hr_errors.dfy ===
/** The bot front-end's human-readable error: the text shown to the chat user,
    paired with the error that caused it. */
module HumanErrors {
  import opened Domain

  /** What a handler error wraps: a domain sentinel, or the failure of a Telegram
      send, which carries only its message. */
  datatype Cause = DomainError(kind: Error) | SendFailed(message: string)

  /** The message of the wrapped error. */
  function Message(c: Cause): string {
    match c
    case DomainError(k) => ErrorText(k)
    case SendFailed(m) => m
  }

  datatype HrError = HrError(human: string, cause: Cause)

  /** newHRError: both parts are kept as given. */
  function NewHRError(human: string, cause: Cause): (e: HrError)
    ensures Human(e) == human && CauseOf(e) == cause
  {
    HrError(human, cause)
  }

  /** The text meant for the chat user: together with the wrapped error it
      rebuilds the wrapper. */
  function Human(e: HrError): (r: string)
    ensures HrError(r, e.cause) == e
  {
    e.human
  }

  /** The wrapped error: together with the human text it rebuilds the
      wrapper. */
  function CauseOf(e: HrError): (r: Cause)
    ensures HrError(e.human, r) == e
  {
    e.cause
  }

  /** The error-interface text: the wrapped error's message, whatever the
      human text is. */
  function ErrorString(e: HrError): (r: string)
    ensures r == Message(CauseOf(e))
  {
    Message(e.cause)
  }

  /** Two wrappers of the same cause report the same error text, and the
      wrapper can be taken apart into exactly what built it. */
  lemma ErrorIgnoresHuman(h1: string, h2: string, c: Cause)
    ensures ErrorString(NewHRError(h1, c)) == ErrorString(NewHRError(h2, c))
    ensures NewHRError(Human(NewHRError(h1, c)), CauseOf(NewHRError(h1, c))) == NewHRError(h1, c)
  {
  }

  /** The error text is the domain message, not the text shown to the user:
      the missing-nickname wrapper reports "bot bad request". */
  lemma ErrorIsNotHuman()
    ensures var e := NewHRError("Никнейм не передан!", DomainError(BotBadRequest));
      ErrorString(e) == "bot bad request" && ErrorString(e) != Human(e)
  {
    var e := NewHRError("Никнейм не передан!", DomainError(BotBadRequest));
    assert ErrorString(e)[0] != Human(e)[0];
  }
}

=== FILE: kttc.dfy ===
/** The KTTC statistics client: the figures of the latest 1000 battles, each
    tagged with one of five coloured hearts by fixed thresholds. The HTTP
    exchange and JSON decoding are external; their outcome arrives as a `Reply`.
    The API's float64 figures are modelled as reals: only comparisons with
    constants are made. */
module Kttc {
  import opened Wrappers
  import opened Domain

  /** The five heart colours, from worst to best. */
  datatype Color = Red | Yellow | Green | Blue | Purple

  /** The heart emoji stored in a line's colour field. */
  function Glyph(c: Color): string {
    match c
    case Red => "\U{2764}\U{FE0F}"
    case Yellow => "\U{1F49B}"
    case Green => "\U{1F49A}"
    case Blue => "\U{1F499}"
    case Purple => "\U{1F49C}"
  }

  /** Reads a colour field back: the colour whose emoji it is, or None for the
      empty field and any other text. */
  function ColorOf(glyph: string): (r: Option<Color>)
    ensures r.Some? ==> glyph == Glyph(r.value)
  {
    if glyph == Glyph(Red) then Some(Red)
    else if glyph == Glyph(Yellow) then Some(Yellow)
    else if glyph == Glyph(Green) then Some(Green)
    else if glyph == Glyph(Blue) then Some(Blue)
    else if glyph == Glyph(Purple) then Some(Purple)
    else None
  }

  /** The five emoji are distinct and none is empty, so the colour can be read
      back from the field. */
  lemma GlyphRoundTrip(c: Color)
    ensures ColorOf(Glyph(c)) == Some(c)
    ensures ColorOf("") == None
  {
    assert Glyph(Red)[0] != Glyph(Yellow)[0];
    assert Glyph(Yellow)[|Glyph(Yellow)| - 1] != Glyph(Green)[|Glyph(Green)| - 1];
  }

  function Rank(c: Color): nat {
    match c
    case Red => 0
    case Yellow => 1
    case Green => 2
    case Blue => 3
    case Purple => 4
  }

  /** The four thresholds that split the line into five bands. */
  datatype Bands = Bands(t1: real, t2: real, t3: real, t4: real)

  predicate Ascending(b: Bands) {
    b.t1 < b.t2 < b.t3 < b.t4
  }

  /** The half-open band [lo, hi) each colour stands for. The first band has no
      lower bound: the bound in the source is commented out. */
  predicate InBand(v: real, b: Bands, c: Color) {
    match c
    case Red => v < b.t1
    case Yellow => b.t1 <= v < b.t2
    case Green => b.t2 <= v < b.t3
    case Blue => b.t3 <= v < b.t4
    case Purple => b.t4 <= v
  }

  /** The switch statement: the first case that holds picks the colour; if
      none holds the colour stays unset. */
  function Classify(v: real, b: Bands): (r: Option<Color>)
    ensures r.Some? ==> InBand(v, b, r.value)
    ensures Ascending(b) ==> r.Some?
  {
    if v < b.t1 then Some(Red)
    else if b.t1 <= v && v < b.t2 then Some(Yellow)
    else if b.t2 <= v && v < b.t3 then Some(Green)
    else if b.t3 <= v && v < b.t4 then Some(Blue)
    else if v >= b.t4 then Some(Purple)
    else None
  }

  /** With ascending thresholds the bands do not overlap, so the colour
      Classify picks is the only one whose band holds the value. */
  lemma BandsDisjoint(v: real, b: Bands, c: Color)
    requires Ascending(b)
    ensures InBand(v, b, c) <==> Classify(v, b) == Some(c)
  {
  }

  /** A higher value never gets a worse colour. */
  lemma ClassifyMonotone(v: real, w: real, b: Bands)
    requires Ascending(b)
    requires v <= w
    ensures Rank(Classify(v, b).value) <= Rank(Classify(w, b).value)
  {
  }

  /** The five metrics in output order. */
  datatype Metric = WN8 | WTR | Winrate | Damage | Hits

  const Order: seq<Metric> := [WN8, WTR, Winrate, Damage, Hits]

  function Name(m: Metric): string {
    match m
    case WN8 => "WN8"
    case WTR => "WTR"
    case Winrate => "Процент побед"
    case Damage => "Средний урон"
    case Hits => "Процент попадений"
  }

  function Thresholds(m: Metric): Bands {
    match m
    case WN8 => Bands(978.0, 1574.0, 2371.0, 3188.0)
    case WTR => Bands(4703.0, 6800.0, 9050.0, 10496.0)
    case Winrate => Bands(49.2, 52.54, 57.81, 63.81)
    case Damage => Bands(750.0, 1000.0, 1800.0, 2500.0)
    case Hits => Bands(60.5, 68.5, 74.5, 78.5)
  }

  /** Every metric's thresholds ascend, so each value gets exactly one colour. */
  lemma ThresholdsAscend(m: Metric)
    ensures Ascending(Thresholds(m))
  {
  }

  /** The per-metric deltas of the DELTA object. */
  datatype Deltas = Deltas(wn8: real, wtr: real, winrate: real, damaged: real, hitsPercentage: real)

  /** The figures of one battle window; WTR arrives as an integer. */
  datatype Latest = Latest(wn8: real, wtr: int, winrate: real, damaged: real, hitsPercentage: real, deltas: Deltas)

  /** The metric's figure, converted to a real where the source converts it. */
  function ValueOf(l: Latest, m: Metric): real {
    match m
    case WN8 => l.wn8
    case WTR => l.wtr as real
    case Winrate => l.winrate
    case Damage => l.damaged
    case Hits => l.hitsPercentage
  }

  function DeltaOf(l: Latest, m: Metric): real {
    match m
    case WN8 => l.deltas.wn8
    case WTR => l.deltas.wtr
    case Winrate => l.deltas.winrate
    case Damage => l.deltas.damaged
    case Hits => l.deltas.hitsPercentage
  }

  /** One output line; `color` is the heart emoji, empty where no case of the
      switch matched. */
  datatype KttcStat = KttcStat(name: string, value: real, delta: real, color: string)

  /** The response: a transport failure, an undecodable body, or the envelope
      with its success flag and its data, present when it decodes as the
      statistics keyed by battle window. */
  datatype Reply = TransportFailed | Undecodable | Envelope(success: bool, byBattles: Option<map<string, Latest>>)

  /** The window the adapter reports. */
  const LatestWindow := "1000"

  /** One metric's line: its name, figure and delta, and the emoji of the
      colour the switch picks, which reads back as that colour. */
  function Entry(l: Latest, m: Metric): (r: KttcStat)
    ensures r.name == Name(m) && r.value == ValueOf(l, m) && r.delta == DeltaOf(l, m)
    ensures ColorOf(r.color) == Classify(ValueOf(l, m), Thresholds(m))
  {
    var v := ValueOf(l, m);
    var c := Classify(v, Thresholds(m));
    GlyphRoundTrip(if c.Some? then c.value else Red);
    KttcStat(Name(m), v, DeltaOf(l, m), if c.Some? then Glyph(c.value) else "")
  }

  /** GetStats: exactly five lines in the fixed order when the "1000" window is
      present, InternalKTTC for every failure. */
  function GetStats(reply: Reply): (r: Result<seq<KttcStat>, Error>)
    ensures r.Success? <==>
      reply.Envelope? && reply.success && reply.byBattles.Some? && LatestWindow in reply.byBattles.value
    ensures r.Failure? ==> r.error == InternalKTTC
    ensures r.Success? ==>
      var l := reply.byBattles.value[LatestWindow];
      && |r.value| == |Order|
      && forall i :: 0 <= i < |Order| ==>
        && r.value[i].name == Name(Order[i])
        && r.value[i].value == ValueOf(l, Order[i])
        && r.value[i].delta == DeltaOf(l, Order[i])
        && ColorOf(r.value[i].color).Some?
        && InBand(r.value[i].value, Thresholds(Order[i]), ColorOf(r.value[i].color).value)
  {
    if !reply.Envelope? || !reply.success || reply.byBattles.None? then Failure(InternalKTTC)
    else if LatestWindow !in reply.byBattles.value then Failure(InternalKTTC)
    else
      var l := reply.byBattles.value[LatestWindow];
      Success([Entry(l, WN8), Entry(l, WTR), Entry(l, Winrate), Entry(l, Damage), Entry(l, Hits)])
  }
}

=== FILE: service.dfy ===
/** The domain service: each bot command's use case, orchestrating the player
    lookup, the XVM stats fetch and the store. The lookup and the fetch are
    the service's interfaces, so they arrive as functions; each database call
    runs against the store model with its own injected fault. Every use case
    records the calls it made, with their failures, in order. */
module Service {
  import opened Wrappers
  import opened Domain
  import Text
  import Store
  import Xvm

  /** The injected database failures, one per kind of call (each use case makes
      each kind of call at most once). */
  datatype DbFaults = DbFaults(
    getUser: bool,
    noRowDetected: bool,
    upsert: bool,
    getStats: bool,
    update: Option<Store.TxStep>)

  /** The service's collaborators: Wargaming.FindPlayer, XVM.GetStats, and the
      database faults. */
  datatype Backend = Backend(
    findPlayer: string -> Result<Player, Error>,
    fetchStats: (int, bool) -> Result<seq<Stat>, Error>,
    faults: DbFaults)

  /** A call to a collaborator, with its arguments. */
  datatype Call =
    | FindPlayer(nickname: string)
    | UpsertUser(user: User)
    | GetUser(telegramId: int)
    | GetStats(userId: int)
    | FetchStats(accountId: int, withTrend: bool)
    | UpdateStats(userId: int, stats: seq<Stat>)

  /** A call and the error it returned, if any. */
  datatype Event = Event(call: Call, failure: Option<Error>)

  /** What a use case returned, and the calls it made on the way. */
  datatype Answer<T> = Answer(events: seq<Event>, result: Result<T, Error>)

  /** An answer together with the store it leaves behind. */
  datatype Effect<T> = Effect(db: Store.Db, answer: Answer<T>)

  /** Every call but the last succeeded; a failing last call is the answer,
      unchanged; a successful answer means every call succeeded. */
  predicate StopsAtFirstFailure<T>(events: seq<Event>, result: Result<T, Error>) {
    && (forall i :: 0 <= i < |events| - 1 ==> events[i].failure.None?)
    && (|events| > 0 && events[|events| - 1].failure.Some? ==>
          result == Failure(events[|events| - 1].failure.value))
    && (result.Success? ==> forall i :: 0 <= i < |events| ==> events[i].failure.None?)
  }

  // ---------------------------------------------------------------- message texts

  const StartText := "Привет.\n\nКоманды:\n"
    + "/get <i>nickname</i> — запрашивает и отображает статистику игрока.\n"
    + "/save <i>nickname</i> — позволяет сохранить свой никнейм.\n"
    + "/me — выводит расширенную статистику по сохранённому никнейму.\n"
    + "/refresh — обновляет кэш."

  function Greeting(nickname: string): (r: string)
    ensures |r| > 0
  {
    "\n\nКстати, ты уже сохранил свой никнейм, приветствую <b>" + nickname + "</b>!"
  }

  const SavedText := "Твой никнейм сохранён, ты можешь посмотреть свою статистику здесь: /me"
  const RefreshedText := "Статистика обновлена!"
  const NoStatsText := "Показатели на найдены."
  const VehicleHeader := "\n<b>Техника:</b>\n"
  const PrivateChat := "private"

  /** The /me header: nickname and a link to the player's XVM page. */
  function MeHeader(nickname: string, accountId: int): string {
    "<b>Игрок:</b> " + nickname + " <a href=\"" + Xvm.PlayerPageUrl(accountId) + "\">(на сайте)</a>\n\n"
  }

  /** The /get header. */
  function StatsHeader(nickname: string): string {
    "<b>Игрок:</b> " + nickname + "\n\n"
  }

  /** The command a stored anchor id becomes: its first '#' turned into '/'. */
  function ChartCommand(htmlId: string): string {
    Text.ReplaceFirst(htmlId, '#', '/')
  }

  /** One valued statistic; in private chats followed by its chart command. */
  function ValueLine(s: Stat, private: bool): string
    requires s.value.Some?
  {
    if private then "<b>" + s.name + ":</b> " + s.value.value + " " + ChartCommand(s.htmlId) + "\n"
    else "<b>" + s.name + ":</b> " + s.value.value + "\n"
  }

  /** One image-only statistic of the private vehicle section. */
  function VehicleLine(s: Stat): string {
    "<b>" + s.name + ":</b> " + ChartCommand(s.htmlId) + "\n"
  }

  /** Reference: the statistics that have a value, in order. */
  function Valued(ss: seq<Stat>): (r: seq<Stat>)
    ensures forall k :: 0 <= k < |r| ==> r[k].value.Some?
  {
    if |ss| == 0 then [] else (if ss[0].value.Some? then [ss[0]] else []) + Valued(ss[1..])
  }

  /** Reference: the statistics without a value, in order. */
  function Unvalued(ss: seq<Stat>): (r: seq<Stat>)
    ensures forall k :: 0 <= k < |r| ==> r[k].value.None?
  {
    if |ss| == 0 then [] else (if ss[0].value.None? then [ss[0]] else []) + Unvalued(ss[1..])
  }

  /** Together the two filters keep exactly the statistics, each on its side. */
  lemma {:induction false} FiltersPartition(ss: seq<Stat>)
    ensures forall s :: s in Valued(ss) <==> s in ss && s.value.Some?
    ensures forall s :: s in Unvalued(ss) <==> s in ss && s.value.None?
    ensures |Valued(ss)| + |Unvalued(ss)| == |ss|
  {
    if |ss| > 0 {
      FiltersPartition(ss[1..]);
      assert ss == [ss[0]] + ss[1..];
    }
  }

  /** The message loop over the statistics, writing a line for each valued one:
      one line per valued statistic, in order. */
  function ValueLines(ss: seq<Stat>, private: bool): (r: seq<string>)
    ensures |r| == |Valued(ss)|
    ensures forall k :: 0 <= k < |r| ==> Valued(ss)[k].value.Some? && r[k] == ValueLine(Valued(ss)[k], private)
  {
    if |ss| == 0 then []
    else
      var rest := ValueLines(ss[1..], private);
      if ss[0].value.Some? then
        assert Valued(ss) == [ss[0]] + Valued(ss[1..]);
        [ValueLine(ss[0], private)] + rest
      else
        assert Valued(ss) == Valued(ss[1..]);
        rest
  }

  /** The vehicle-section loop: one line per statistic without a value, in order. */
  function VehicleLines(ss: seq<Stat>): (r: seq<string>)
    ensures |r| == |Unvalued(ss)|
    ensures forall k :: 0 <= k < |r| ==> r[k] == VehicleLine(Unvalued(ss)[k])
  {
    if |ss| == 0 then []
    else
      var rest := VehicleLines(ss[1..]);
      if ss[0].value.None? then
        assert Unvalued(ss) == [ss[0]] + Unvalued(ss[1..]);
        [VehicleLine(ss[0])] + rest
      else
        assert Unvalued(ss) == Unvalued(ss[1..]);
        rest
  }

  function Concat(lines: seq<string>): string {
    if |lines| == 0 then "" else lines[0] + Concat(lines[1..])
  }

  /** Lines that each end in a newline concatenate to a text ending in one. */
  lemma {:induction false} ConcatEndsWithNewline(lines: seq<string>)
    requires forall k :: 0 <= k < |lines| ==> |lines[k]| > 0 && lines[k][|lines[k]| - 1] == '\n'
    ensures |lines| > 0 ==> |Concat(lines)| > 0 && Concat(lines)[|Concat(lines)| - 1] == '\n'
  {
    if |lines| > 1 {
      ConcatEndsWithNewline(lines[1..]);
      assert Concat(lines) == lines[0] + Concat(lines[1..]);
    }
  }

  /** A text ending in a newline does not end with the "not found" notice. */
  lemma NewlineEndIsNoNotice(msg: string)
    requires |msg| > 0 && msg[|msg| - 1] == '\n'
    ensures !Text.HasSuffix(msg, NoStatsText)
  {
    var n := |NoStatsText|;
    assert NoStatsText[n - 1] == '.';
    if |msg| >= n {
      assert msg[|msg| - n..][n - 1] == msg[|msg| - 1];
    }
  }

  lemma ValueLineEndsWithNewline(s: Stat, private: bool)
    requires s.value.Some?
    ensures var l := ValueLine(s, private); |l| > 0 && l[|l| - 1] == '\n'
  {
    var front := "<b>" + s.name + ":</b> " + s.value.value + (if private then " " + ChartCommand(s.htmlId) else "");
    assert ValueLine(s, private) == front + "\n";
  }

  /** Every valued line ends with a newline. */
  lemma ValueLinesEndWithNewline(ss: seq<Stat>, private: bool)
    ensures var lines := ValueLines(ss, private);
      forall k :: 0 <= k < |lines| ==> |lines[k]| > 0 && lines[k][|lines[k]| - 1] == '\n'
  {
    var lines := ValueLines(ss, private);
    forall k | 0 <= k < |lines| {
      ValueLineEndsWithNewline(Valued(ss)[k], private);
    }
  }

  // ---------------------------------------------------------------- use cases

  /** /start: register the chat user (keeping any saved nickname) and greet. */
  function GetCreateUserMessage(db: Store.Db, be: Backend, telegramId: int): (e: Effect<string>)
    ensures StopsAtFirstFailure(e.answer.events, e.answer.result)
    ensures |e.answer.events| == 1 && e.answer.events[0].call == UpsertUser(User(0, telegramId, None, None))
    ensures e.answer.result.Failure? ==> e.db == db && e.answer.result.error == InternalDatabase
    ensures be.faults.upsert <==> e.answer.result.Failure?
    ensures !be.faults.upsert ==> e.db == Store.UpsertUser(db, User(0, telegramId, None, None), false).db
    ensures e.answer.result.Success? ==>
      && telegramId in e.db.users
      && Text.IsPrefix(StartText, e.answer.result.value)
      && (e.answer.result.value == StartText <==> e.db.users[telegramId].nickname.None?)
      && (e.db.users[telegramId].nickname.Some? ==>
            e.answer.result.value == StartText + Greeting(e.db.users[telegramId].nickname.value))
    ensures e.answer.result.Success? && telegramId in db.users ==>
      e.db.users[telegramId].nickname == db.users[telegramId].nickname
  {
    var row := User(0, telegramId, None, None);
    var up := Store.UpsertUser(db, row, be.faults.upsert);
    var events := [Event(UpsertUser(row), up.result.ErrorOf())];
    if up.result.Failure? then Effect(up.db, Answer(events, Failure(up.result.error)))
    else
      var user := up.result.value;
      var msg := if user.nickname.Some? then StartText + Greeting(user.nickname.value) else StartText;
      assert Text.IsPrefix(StartText, msg) by {
        if user.nickname.Some? { Text.PrefixOfConcat(StartText, Greeting(user.nickname.value)); }
      }
      Effect(up.db, Answer(events, Success(msg)))
  }

  /** /save: resolve the typed nickname, store the canonical nickname and
      account id, then fetch the stats with trend images and replace the
      user's stored stats with them. */
  function GetSaveNicknameMessage(db: Store.Db, be: Backend, telegramId: int, nickname: string): (e: Effect<string>)
    ensures StopsAtFirstFailure(e.answer.events, e.answer.result)
    ensures |e.answer.events| >= 1 && e.answer.events[0].call == FindPlayer(nickname)
    ensures e.answer.result.Failure? ==> e.answer.events[|e.answer.events| - 1].failure.Some?
    ensures var find := be.findPlayer(nickname);
      find.Failure? ==> e.answer.result == Failure(find.error) && |e.answer.events| == 1 && e.db == db
    ensures be.findPlayer(nickname).Success? && be.faults.upsert ==>
      e.answer.result == Failure(InternalDatabase) && |e.answer.events| == 2 && e.db == db
    ensures var find := be.findPlayer(nickname);
      find.Success? && !be.faults.upsert ==>
        var saved := Store.UpsertUser(db, User(0, telegramId, Some(find.value.nickname), Some(find.value.accountId)), false).db;
        var fetched := be.fetchStats(find.value.accountId, true);
        && (fetched.Failure? ==> e.answer.result == Failure(fetched.error) && |e.answer.events| == 3 && e.db == saved)
        && (fetched.Success? && be.faults.getUser ==>
              e.answer.result == Failure(InternalDatabase) && |e.answer.events| == 4 && e.db == saved)
        && (fetched.Success? && !be.faults.getUser ==>
              && telegramId in saved.users
              && |e.answer.events| == 5
              && (e.answer.result.Success? <==> be.faults.update.None?)
              && (e.answer.result.Failure? ==> e.answer.result.error == InternalDatabase)
              && e.db == Store.UpdateStatsByUserID(saved, saved.users[telegramId].id, fetched.value, be.faults.update).db)
    ensures e.answer.result.Success? ==>
      && be.findPlayer(nickname).Success?
      && be.fetchStats(be.findPlayer(nickname).value.accountId, true).Success?
      && |e.answer.events| == 5
    ensures e.answer.result.Success? ==>
      var p := be.findPlayer(nickname).value;
      && e.answer.events[1].call == UpsertUser(User(0, telegramId, Some(p.nickname), Some(p.accountId)))
      && e.answer.events[2].call == FetchStats(p.accountId, true)
      && e.answer.events[3].call == GetUser(telegramId)
      && telegramId in e.db.users
      && e.answer.events[4].call == UpdateStats(e.db.users[telegramId].id, be.fetchStats(p.accountId, true).value)
      && e.db.users[telegramId].nickname == Some(p.nickname)
      && e.db.users[telegramId].wargamingId == Some(p.accountId)
      && e.answer.result.value == SavedText
  {
    var find := be.findPlayer(nickname);
    var e1 := Event(FindPlayer(nickname), find.ErrorOf());
    if find.Failure? then Effect(db, Answer([e1], Failure(find.error)))
    else
      var p := find.value;
      var row := User(0, telegramId, Some(p.nickname), Some(p.accountId));
      var up := Store.UpsertUser(db, row, be.faults.upsert);
      var e2 := Event(UpsertUser(row), up.result.ErrorOf());
      if up.result.Failure? then Effect(up.db, Answer([e1, e2], Failure(up.result.error)))
      else SaveFetched(up.db, be, telegramId, p.accountId, [e1, e2])
  }

  /** The rest of /save once the player's row is written: fetch the stats with
      trend images, read the user back for its id, and replace the user's
      stored stats. `done` holds the calls already made, all successful. */
  function SaveFetched(saved: Store.Db, be: Backend, telegramId: int, accountId: int, done: seq<Event>): (e: Effect<string>)
    requires forall i :: 0 <= i < |done| ==> done[i].failure.None?
    ensures |done| < |e.answer.events| <= |done| + 3 && e.answer.events[..|done|] == done
    ensures StopsAtFirstFailure(e.answer.events, e.answer.result)
    ensures e.answer.events[|done|].call == FetchStats(accountId, true)
    ensures e.answer.result.Failure? ==> e.answer.events[|e.answer.events| - 1].failure.Some?
    ensures var fetched := be.fetchStats(accountId, true);
      fetched.Failure? ==> e.answer.result == Failure(fetched.error) && |e.answer.events| == |done| + 1 && e.db == saved
    ensures be.fetchStats(accountId, true).Success? && be.faults.getUser ==>
      e.answer.result == Failure(InternalDatabase) && |e.answer.events| == |done| + 2 && e.db == saved
    ensures var fetched := be.fetchStats(accountId, true);
      fetched.Success? && !be.faults.getUser && telegramId in saved.users ==>
        && |e.answer.events| == |done| + 3
        && e.answer.events[|done| + 1].call == GetUser(telegramId)
        && e.answer.events[|done| + 2].call == UpdateStats(saved.users[telegramId].id, fetched.value)
        && (e.answer.result.Success? <==> be.faults.update.None?)
        && (e.answer.result.Failure? ==> e.answer.result.error == InternalDatabase)
        && (e.answer.result.Success? ==> e.answer.result.value == SavedText)
        && e.db == Store.UpdateStatsByUserID(saved, saved.users[telegramId].id, fetched.value, be.faults.update).db
  {
    var fetched := be.fetchStats(accountId, true);
    var e3 := Event(FetchStats(accountId, true), fetched.ErrorOf());
    if fetched.Failure? then Effect(saved, Answer(done + [e3], Failure(fetched.error)))
    else
      var user := Store.GetUserByTelegramID(saved, telegramId, be.faults.getUser, be.faults.noRowDetected);
      var e4 := Event(GetUser(telegramId), user.ErrorOf());
      if user.Failure? then Effect(saved, Answer(done + [e3, e4], Failure(user.error)))
      else
        var upd := Store.UpdateStatsByUserID(saved, user.value.id, fetched.value, be.faults.update);
        var e5 := Event(UpdateStats(user.value.id, fetched.value), upd.result.ErrorOf());
        if upd.result.Failure? then Effect(upd.db, Answer(done + [e3, e4, e5], Failure(upd.result.error)))
        else Effect(upd.db, Answer(done + [e3, e4, e5], Success(SavedText)))
  }

  /** /refresh: re-fetch the saved player's stats with trend images and replace
      the stored ones; a user without a saved account gets NicknameNotSaved
      before anything is fetched or written. */
  function GetRefreshMessage(db: Store.Db, be: Backend, telegramId: int): (e: Effect<string>)
    ensures StopsAtFirstFailure(e.answer.events, e.answer.result)
    ensures |e.answer.events| >= 1 && e.answer.events[0].call == GetUser(telegramId)
    ensures var user := Store.GetUserByTelegramID(db, telegramId, be.faults.getUser, be.faults.noRowDetected);
      user.Failure? ==> e.answer.result == Failure(user.error) && |e.answer.events| == 1 && e.db == db
    ensures var user := Store.GetUserByTelegramID(db, telegramId, be.faults.getUser, be.faults.noRowDetected);
      user.Success? && user.value.wargamingId.None? ==>
        e.answer.result == Failure(NicknameNotSaved) && |e.answer.events| == 1 && e.db == db
    ensures var user := Store.GetUserByTelegramID(db, telegramId, be.faults.getUser, be.faults.noRowDetected);
      user.Success? && user.value.wargamingId.Some? ==>
        var fetched := be.fetchStats(user.value.wargamingId.value, true);
        && (fetched.Failure? ==> e.answer.result == Failure(fetched.error) && |e.answer.events| == 2 && e.db == db)
        && (fetched.Success? ==>
              && |e.answer.events| == 3
              && (e.answer.result.Success? <==> be.faults.update.None?)
              && (e.answer.result.Failure? ==> e.answer.result.error == InternalDatabase)
              && e.db == Store.UpdateStatsByUserID(db, user.value.id, fetched.value, be.faults.update).db)
    ensures forall i :: 0 <= i < |e.answer.events| && e.answer.events[i].call.FetchStats? ==>
      e.answer.events[i].call.withTrend
    ensures e.answer.result.Success? ==>
      && telegramId in db.users
      && db.users[telegramId].wargamingId.Some?
      && be.fetchStats(db.users[telegramId].wargamingId.value, true).Success?
      && |e.answer.events| == 3
    ensures e.answer.result.Success? ==>
      var user := db.users[telegramId];
      && e.answer.events[1].call == FetchStats(user.wargamingId.value, true)
      && e.answer.events[2].call == UpdateStats(user.id, be.fetchStats(user.wargamingId.value, true).value)
      && e.answer.result.value == RefreshedText
  {
    var user := Store.GetUserByTelegramID(db, telegramId, be.faults.getUser, be.faults.noRowDetected);
    var e1 := Event(GetUser(telegramId), user.ErrorOf());
    if user.Failure? then Effect(db, Answer([e1], Failure(user.error)))
    else if user.value.wargamingId.None? then Effect(db, Answer([e1], Failure(NicknameNotSaved)))
    else
      var account := user.value.wargamingId.value;
      var fetched := be.fetchStats(account, true);
      var e2 := Event(FetchStats(account, true), fetched.ErrorOf());
      if fetched.Failure? then Effect(db, Answer([e1, e2], Failure(fetched.error)))
      else
        var upd := Store.UpdateStatsByUserID(db, user.value.id, fetched.value, be.faults.update);
        var e3 := Event(UpdateStats(user.value.id, fetched.value), upd.result.ErrorOf());
        if upd.result.Failure? then Effect(upd.db, Answer([e1, e2, e3], Failure(upd.result.error)))
        else Effect(upd.db, Answer([e1, e2, e3], Success(RefreshedText)))
  }

  /** Reference: the line of each statistic of a list of valued ones. */
  function EachValueLine(vs: seq<Stat>, private: bool): seq<string>
    requires forall k :: 0 <= k < |vs| ==> vs[k].value.Some?
  {
    seq(|vs|, k requires 0 <= k < |vs| => ValueLine(vs[k], private))
  }

  /** Reference: the vehicle line of each statistic of a list. */
  function EachVehicleLine(us: seq<Stat>): seq<string> {
    seq(|us|, k requires 0 <= k < |us| => VehicleLine(us[k]))
  }

  /** The /me lines after the header: a line per valued statistic, with its
      chart command in private chats; in private chats only, the vehicle
      section with a line per statistic without a value. */
  function MeBody(ss: seq<Stat>, chatType: string): (body: string)
    ensures chatType != PrivateChat ==> body == Concat(EachValueLine(Valued(ss), false))
    ensures chatType == PrivateChat ==>
      body == Concat(EachValueLine(Valued(ss), true)) + VehicleHeader + Concat(EachVehicleLine(Unvalued(ss)))
  {
    var private := chatType == PrivateChat;
    assert ValueLines(ss, private) == EachValueLine(Valued(ss), private);
    assert VehicleLines(ss) == EachVehicleLine(Unvalued(ss));
    Concat(ValueLines(ss, private)) + (if private then VehicleHeader + Concat(VehicleLines(ss)) else "")
  }

  /** /me: the saved player's stored statistics. Reads only. */
  function GetMeMessage(db: Store.Db, be: Backend, telegramId: int, chatType: string): (a: Answer<string>)
    ensures StopsAtFirstFailure(a.events, a.result)
    ensures a.result.Failure? ==>
      a.result.error in {InternalDatabase, UserNotFound, NicknameNotSaved}
    ensures var user := Store.GetUserByTelegramID(db, telegramId, be.faults.getUser, be.faults.noRowDetected);
      user.Failure? ==> a.result == Failure(user.error) && |a.events| == 1
    ensures var user := Store.GetUserByTelegramID(db, telegramId, be.faults.getUser, be.faults.noRowDetected);
      user.Success? && be.faults.getStats ==> a.result == Failure(InternalDatabase) && |a.events| == 2
    ensures var user := Store.GetUserByTelegramID(db, telegramId, be.faults.getUser, be.faults.noRowDetected);
      user.Success? && !be.faults.getStats ==>
        (a.result.Success? <==> user.value.nickname.Some? && user.value.wargamingId.Some?)
    ensures var user := Store.GetUserByTelegramID(db, telegramId, be.faults.getUser, be.faults.noRowDetected);
      user.Success? && !be.faults.getStats && (user.value.nickname.None? || user.value.wargamingId.None?) ==>
        a.result == Failure(NicknameNotSaved)
    ensures a.result.Success? ==>
      telegramId in db.users && db.users[telegramId].nickname.Some? && db.users[telegramId].wargamingId.Some?
    ensures a.result.Success? ==>
      var user := db.users[telegramId];
      var ss := Store.RowsOf(db.stats, user.id);
      a.result.value == MeHeader(user.nickname.value, user.wargamingId.value) + MeBody(ss, chatType)
  {
    var user := Store.GetUserByTelegramID(db, telegramId, be.faults.getUser, be.faults.noRowDetected);
    var e1 := Event(GetUser(telegramId), user.ErrorOf());
    if user.Failure? then Answer([e1], Failure(user.error))
    else
      var stats := Store.GetStatsByUserID(db, user.value.id, be.faults.getStats);
      var e2 := Event(GetStats(user.value.id), stats.ErrorOf());
      if stats.Failure? then Answer([e1, e2], Failure(stats.error))
      else if user.value.nickname.None? || user.value.wargamingId.None? then
        Answer([e1, e2], Failure(NicknameNotSaved))
      else
        var msg := MeHeader(user.value.nickname.value, user.value.wargamingId.value) + MeBody(stats.value, chatType);
        Answer([e1, e2], Success(msg))
  }

  /** Index of the first statistic stored under `htmlId`. */
  function FirstWithHtmlId(ss: seq<Stat>, htmlId: string): (r: Option<nat>)
    ensures r.Some? ==> r.value < |ss| && ss[r.value].htmlId == htmlId
    ensures r.Some? ==> forall j :: 0 <= j < r.value ==> ss[j].htmlId != htmlId
    ensures r.None? ==> forall j :: 0 <= j < |ss| ==> ss[j].htmlId != htmlId
  {
    if |ss| == 0 then None
    else if ss[0].htmlId == htmlId then Some(0)
    else match FirstWithHtmlId(ss[1..], htmlId)
      case None => None
      case Some(k) => Some(k + 1)
  }

  /** A trend command: the image of the first stored statistic with the
      requested anchor id, or TrendImageNotFound. Reads only. */
  function GetTrendImage(db: Store.Db, be: Backend, telegramId: int, htmlId: string): (a: Answer<Image>)
    ensures StopsAtFirstFailure(a.events, a.result)
    ensures a.result.Failure? ==>
      a.result.error in {InternalDatabase, UserNotFound, TrendImageNotFound}
    ensures a.result.Success? ==> telegramId in db.users
    ensures a.result.Success? ==>
      var ss := Store.RowsOf(db.stats, db.users[telegramId].id);
      exists i :: 0 <= i < |ss| && ss[i].htmlId == htmlId && a.result.value == ss[i].image
           && forall j :: 0 <= j < i ==> ss[j].htmlId != htmlId
    ensures var user := Store.GetUserByTelegramID(db, telegramId, be.faults.getUser, be.faults.noRowDetected);
      user.Failure? ==> a.result == Failure(user.error) && |a.events| == 1
    ensures var user := Store.GetUserByTelegramID(db, telegramId, be.faults.getUser, be.faults.noRowDetected);
      user.Success? && be.faults.getStats ==> a.result == Failure(InternalDatabase) && |a.events| == 2
    ensures var user := Store.GetUserByTelegramID(db, telegramId, be.faults.getUser, be.faults.noRowDetected);
      user.Success? && !be.faults.getStats ==>
        var ss := Store.RowsOf(db.stats, user.value.id);
        && (a.result.Success? <==> exists i :: 0 <= i < |ss| && ss[i].htmlId == htmlId)
        && (a.result.Failure? ==> a.result == Failure(TrendImageNotFound))
    ensures var user := Store.GetUserByTelegramID(db, telegramId, be.faults.getUser, be.faults.noRowDetected);
      user.Success? && !be.faults.getStats ==>
        (a.result == Failure(TrendImageNotFound) <==>
           forall s :: s in Store.RowsOf(db.stats, user.value.id) ==> s.htmlId != htmlId)
  {
    var user := Store.GetUserByTelegramID(db, telegramId, be.faults.getUser, be.faults.noRowDetected);
    var e1 := Event(GetUser(telegramId), user.ErrorOf());
    if user.Failure? then Answer([e1], Failure(user.error))
    else
      var stats := Store.GetStatsByUserID(db, user.value.id, be.faults.getStats);
      var e2 := Event(GetStats(user.value.id), stats.ErrorOf());
      if stats.Failure? then Answer([e1, e2], Failure(stats.error))
      else match FirstWithHtmlId(stats.value, htmlId)
        case None => Answer([e1, e2], Failure(TrendImageNotFound))
        case Some(i) => Answer([e1, e2], Success(stats.value[i].image))
  }

  /** /get: a stranger's statistics, fetched without trend images. */
  function GetStatsMessage(be: Backend, nickname: string): (a: Answer<string>)
    ensures StopsAtFirstFailure(a.events, a.result)
    ensures |a.events| >= 1 && a.events[0].call == FindPlayer(nickname)
    ensures forall i :: 0 <= i < |a.events| && a.events[i].call.FetchStats? ==> !a.events[i].call.withTrend
    ensures var find := be.findPlayer(nickname);
      find.Failure? ==> a.result == Failure(find.error) && |a.events| == 1
    ensures var find := be.findPlayer(nickname);
      find.Success? ==>
        var fetched := be.fetchStats(find.value.accountId, false);
        && (fetched.Failure? ==> a.result == Failure(fetched.error))
        && (fetched.Success? ==> a.result.Success?)
    ensures a.result.Success? ==>
      && be.findPlayer(nickname).Success?
      && be.fetchStats(be.findPlayer(nickname).value.accountId, false).Success?
      && |a.events| == 2
    ensures a.result.Success? ==>
      var p := be.findPlayer(nickname).value;
      var ss := be.fetchStats(p.accountId, false).value;
      && a.events[1].call == FetchStats(p.accountId, false)
      && a.result.value == StatsHeader(p.nickname) + Concat(EachValueLine(Valued(ss), false)) + (if |ss| == 0 then NoStatsText else "")
      && Text.IsPrefix(StatsBody(p.nickname, ss), a.result.value)
      && (Text.HasSuffix(a.result.value, NoStatsText) <==> |ss| == 0)
  {
    var find := be.findPlayer(nickname);
    var e1 := Event(FindPlayer(nickname), find.ErrorOf());
    if find.Failure? then Answer([e1], Failure(find.error))
    else
      var p := find.value;
      var fetched := be.fetchStats(p.accountId, false);
      var e2 := Event(FetchStats(p.accountId, false), fetched.ErrorOf());
      if fetched.Failure? then Answer([e1, e2], Failure(fetched.error))
      else
        Answer([e1, e2], Success(StatsText(p.nickname, fetched.value)))
  }

  /** The /get message before the notice: the header and the valued lines. */
  function StatsBody(nickname: string, ss: seq<Stat>): string {
    StatsHeader(nickname) + Concat(ValueLines(ss, false))
  }

  /** The /get body ends with a newline: the header does, and so does every
      valued line. */
  lemma StatsBodyEndsWithNewline(nickname: string, ss: seq<Stat>)
    ensures var body := StatsBody(nickname, ss); |body| > 0 && body[|body| - 1] == '\n'
  {
    var header := StatsHeader(nickname);
    var lines := ValueLines(ss, false);
    assert header == ("<b>Игрок:</b> " + nickname + "\n") + "\n";
    ValueLinesEndWithNewline(ss, false);
    ConcatEndsWithNewline(lines);
    if |lines| == 0 {
      assert header + Concat(lines) == header;
    } else {
      var c := Concat(lines);
      assert (header + c)[|header + c| - 1] == c[|c| - 1];
    }
  }

  /** The whole /get message: the header, one line per valued statistic in
      order, then the "not found" notice, which ends the message exactly when
      the fetched list is empty. */
  function StatsText(nickname: string, ss: seq<Stat>): (msg: string)
    ensures msg == StatsHeader(nickname) + Concat(EachValueLine(Valued(ss), false)) + (if |ss| == 0 then NoStatsText else "")
    ensures Text.IsPrefix(StatsBody(nickname, ss), msg)
    ensures Text.HasSuffix(msg, NoStatsText) <==> |ss| == 0
  {
    assert ValueLines(ss, false) == EachValueLine(Valued(ss), false);
    var body := StatsBody(nickname, ss);
    if |ss| == 0 then
      Text.PrefixOfConcat(body, NoStatsText);
      Text.SuffixOfConcat(body, NoStatsText);
      body + NoStatsText
    else
      Text.PrefixOfConcat(body, "");
      StatsBodyEndsWithNewline(nickname, ss);
      NewlineEndIsNoNotice(body);
      body
  }

  // ---------------------------------------------------------------- cross-call properties

  /** After a successful /save, /start with a working upsert greets the user by
      the canonical nickname the lookup returned. */
  lemma SaveThenStart(db: Store.Db, be: Backend, starter: Backend, telegramId: int, nickname: string)
    requires GetSaveNicknameMessage(db, be, telegramId, nickname).answer.result.Success?
    requires !starter.faults.upsert
    ensures var e := GetSaveNicknameMessage(db, be, telegramId, nickname);
      GetCreateUserMessage(e.db, starter, telegramId).answer.result
        == Success(StartText + Greeting(be.findPlayer(nickname).value.nickname))
  {
    var e := GetSaveNicknameMessage(db, be, telegramId, nickname);
    var start := GetCreateUserMessage(e.db, starter, telegramId);
    assert e.db.users[telegramId].nickname == Some(be.findPlayer(nickname).value.nickname);
    assert start.db.users[telegramId].nickname == e.db.users[telegramId].nickname;
  }

  /** A successful /save leaves the user's stored statistics exactly the fetched
      list, in order, each owned by the user; the saved player is the one the
      lookup returned, not the typed text. */
  lemma SaveReplacesSnapshot(db: Store.Db, be: Backend, telegramId: int, nickname: string)
    requires GetSaveNicknameMessage(db, be, telegramId, nickname).answer.result.Success?
    ensures var e := GetSaveNicknameMessage(db, be, telegramId, nickname);
      var p := be.findPlayer(nickname).value;
      var ss := be.fetchStats(p.accountId, true).value;
      var rows := Store.RowsOf(e.db.stats, e.db.users[telegramId].id);
      && |rows| == |ss|
      && forall i :: 0 <= i < |rows| ==>
           rows[i].userId == e.db.users[telegramId].id && rows[i].(id := ss[i].id, userId := ss[i].userId) == ss[i]
  {
    var p := be.findPlayer(nickname).value;
    var row := User(0, telegramId, Some(p.nickname), Some(p.accountId));
    var up := Store.UpsertUser(db, row, be.faults.upsert);
    var uid := up.db.users[telegramId].id;
    Store.SnapshotReplaced(up.db, uid, be.fetchStats(p.accountId, true).value, be.faults.update);
  }

  /** /save is not atomic across its steps: when the stats fetch fails after
      the upsert, the new nickname stays saved and the old statistics stay. */
  lemma SavePartialEffect(db: Store.Db, be: Backend, telegramId: int, nickname: string)
    requires be.findPlayer(nickname).Success?
    requires !be.faults.upsert
    requires be.fetchStats(be.findPlayer(nickname).value.accountId, true).Failure?
    ensures var e := GetSaveNicknameMessage(db, be, telegramId, nickname);
      && e.answer.result == Failure(be.fetchStats(be.findPlayer(nickname).value.accountId, true).error)
      && e.db.stats == db.stats
      && telegramId in e.db.users
      && e.db.users[telegramId].nickname == Some(be.findPlayer(nickname).value.nickname)
  {
  }

  /** A successful /refresh leaves the user's stored statistics exactly the
      list fetched with trend images, and every other user's as they were. */
  lemma RefreshReplacesSnapshot(db: Store.Db, be: Backend, telegramId: int, other: int)
    requires GetRefreshMessage(db, be, telegramId).answer.result.Success?
    requires other != db.users[telegramId].id
    ensures var e := GetRefreshMessage(db, be, telegramId);
      var user := db.users[telegramId];
      var ss := be.fetchStats(user.wargamingId.value, true).value;
      var rows := Store.RowsOf(e.db.stats, user.id);
      && |rows| == |ss|
      && (forall i :: 0 <= i < |rows| ==>
            rows[i].userId == user.id && rows[i].(id := ss[i].id, userId := ss[i].userId) == ss[i])
      && Store.RowsOf(e.db.stats, other) == Store.RowsOf(db.stats, other)
  {
    var user := db.users[telegramId];
    var ss := be.fetchStats(user.wargamingId.value, true).value;
    Store.SnapshotReplaced(db, user.id, ss, be.faults.update);
    Store.OtherUsersUntouched(db, user.id, ss, be.faults.update, other);
  }

  /** With working reads, /me for a user with a saved nickname and account
      succeeds and opens with that nickname and the account's page link. */
  lemma MeOpensWithSavedPlayer(db: Store.Db, reader: Backend, telegramId: int, chatType: string)
    requires telegramId in db.users
    requires db.users[telegramId].nickname.Some? && db.users[telegramId].wargamingId.Some?
    requires !reader.faults.getUser && !reader.faults.getStats
    ensures var user := db.users[telegramId];
      var me := GetMeMessage(db, reader, telegramId, chatType);
      me.result.Success? && Text.IsPrefix(MeHeader(user.nickname.value, user.wargamingId.value), me.result.value)
  {
    var user := db.users[telegramId];
    var me := GetMeMessage(db, reader, telegramId, chatType);
    assert me.result.Success?;
    Text.PrefixOfConcat(MeHeader(user.nickname.value, user.wargamingId.value), MeBody(Store.RowsOf(db.stats, user.id), chatType));
  }

  /** What /save stores, /me shows: after a successful save and with no database
      failure on the read, /me greets the canonical nickname and links the
      looked-up account's page. */
  lemma SaveThenMe(db: Store.Db, be: Backend, reader: Backend, telegramId: int, nickname: string, chatType: string)
    requires GetSaveNicknameMessage(db, be, telegramId, nickname).answer.result.Success?
    requires !reader.faults.getUser && !reader.faults.getStats
    ensures var e := GetSaveNicknameMessage(db, be, telegramId, nickname);
      var p := be.findPlayer(nickname).value;
      var me := GetMeMessage(e.db, reader, telegramId, chatType);
      me.result.Success? && Text.IsPrefix(MeHeader(p.nickname, p.accountId), me.result.value)
  {
    var e := GetSaveNicknameMessage(db, be, telegramId, nickname);
    MeOpensWithSavedPlayer(e.db, reader, telegramId, chatType);
  }
}

=== FILE: store.dfy ===
/** The Postgres adapter, over an abstract two-table store. Each call takes a
    fault flag (or a failing step) standing for the database errors the driver
    may report; the SQL text, pooling and migrations are not modelled. */
module Store {
  import opened Wrappers
  import opened Domain

  /** The two tables. `users` is keyed by telegram_id, the column the upsert's
      ON CONFLICT clause treats as unique; `stats` holds its rows in the order
      the engine returns them; the counters stand for the fresh ids the serial
      columns hand out (sequence gaps are not modelled). */
  datatype Db = Db(users: map<int, User>, stats: seq<Stat>, nextUserId: int, nextStatId: int)

  /** Every user row sits under its own telegram_id. */
  predicate Valid(db: Db) {
    forall t :: t in db.users ==> db.users[t].telegramId == t
  }

  /** A database call's effect on the store together with what it returned. */
  datatype Outcome<T> = Outcome(db: Db, result: Result<T, Error>)

  // ---------------------------------------------------------------- users

  /** SELECT ... FROM users WHERE telegram_id = $1. `fault` is a query or scan
      error. How the driver reports a missing row is not visible in the adapter
      (it may surface as sql.ErrNoRows or as a scan error), so `noRowDetected`
      chooses between the two error kinds the adapter can return for it. */
  function GetUserByTelegramID(db: Db, telegramId: int, fault: bool, noRowDetected: bool): (r: Result<User, Error>)
    ensures r.Success? <==> !fault && telegramId in db.users
    ensures r.Success? ==> r.value == db.users[telegramId]
    ensures r.Failure? ==> r.error == InternalDatabase || r.error == UserNotFound
    ensures r.Failure? && r.error == UserNotFound ==> !fault && noRowDetected && telegramId !in db.users
  {
    if fault then Failure(InternalDatabase)
    else if telegramId !in db.users then Failure(if noRowDetected then UserNotFound else InternalDatabase)
    else Success(db.users[telegramId])
  }

  /** SQL COALESCE(new, old): the new value unless it is NULL. */
  function Coalesce<T>(given: Option<T>, stored: Option<T>): Option<T> {
    if given.Some? then given else stored
  }

  /** INSERT ... ON CONFLICT (telegram_id) DO UPDATE ... RETURNING: a new row when
      the telegram_id is unknown, otherwise the existing row with nickname and
      wargaming_id replaced only by non-NULL new values. `fault` is a failed
      statement, which changes nothing. */
  function UpsertUser(db: Db, user: User, fault: bool): (out: Outcome<User>)
    ensures fault ==> out == Outcome(db, Failure(InternalDatabase))
    ensures !fault ==> out.result.Success? && out.db.stats == db.stats
    ensures !fault ==> out.db.users == db.users[user.telegramId := out.result.value]
    ensures !fault ==> out.result.value.telegramId == user.telegramId
    ensures !fault && user.telegramId !in db.users ==>
      out.result.value.nickname == user.nickname && out.result.value.wargamingId == user.wargamingId
    ensures !fault && user.telegramId in db.users ==>
      var prior := db.users[user.telegramId];
      && out.result.value.id == prior.id
      && (user.nickname.Some? ==> out.result.value.nickname == user.nickname)
      && (user.nickname.None? ==> out.result.value.nickname == prior.nickname)
      && (user.wargamingId.Some? ==> out.result.value.wargamingId == user.wargamingId)
      && (user.wargamingId.None? ==> out.result.value.wargamingId == prior.wargamingId)
  {
    if fault then Outcome(db, Failure(InternalDatabase))
    else
      var row :=
        if user.telegramId in db.users then
          var prior := db.users[user.telegramId];
          prior.(telegramId := user.telegramId,
                 nickname := Coalesce(user.nickname, prior.nickname),
                 wargamingId := Coalesce(user.wargamingId, prior.wargamingId))
        else
          User(db.nextUserId, user.telegramId, user.nickname, user.wargamingId);
      var next := if user.telegramId in db.users then db.nextUserId else db.nextUserId + 1;
      Outcome(db.(users := db.users[user.telegramId := row], nextUserId := next), Success(row))
  }

  /** After a successful upsert the lookup by telegram_id finds exactly the
      returned row, and the store stays well keyed. */
  lemma UpsertThenGetUser(db: Db, user: User, noRowDetected: bool)
    requires Valid(db)
    ensures Valid(UpsertUser(db, user, false).db)
    ensures var out := UpsertUser(db, user, false);
      GetUserByTelegramID(out.db, user.telegramId, false, noRowDetected) == out.result
  {
  }

  /** Upserting the same user twice has the effect and the answer of upserting once. */
  lemma UpsertIdempotent(db: Db, user: User)
    ensures var once := UpsertUser(db, user, false);
      UpsertUser(once.db, user, false) == once
  {
    var once := UpsertUser(db, user, false);
    var row := once.result.value;
    assert once.db.users[user.telegramId] == row;
    assert user.telegramId in once.db.users;
    assert once.db.users[user.telegramId := row] == once.db.users;
  }

  // ---------------------------------------------------------------- stats

  /** SELECT * FROM stats WHERE user_id = $1: the owner's rows in storage order. */
  function RowsOf(rows: seq<Stat>, userId: int): (r: seq<Stat>)
    ensures forall k :: 0 <= k < |r| ==> r[k].userId == userId
    ensures |r| <= |rows|
  {
    if |rows| == 0 then []
    else (if rows[0].userId == userId then [rows[0]] else []) + RowsOf(rows[1..], userId)
  }

  /** The rows DELETE FROM stats WHERE user_id = $1 leaves behind. */
  function RowsNotOf(rows: seq<Stat>, userId: int): (r: seq<Stat>)
    ensures forall k :: 0 <= k < |r| ==> r[k].userId != userId
    ensures |r| <= |rows|
  {
    if |rows| == 0 then []
    else (if rows[0].userId != userId then [rows[0]] else []) + RowsNotOf(rows[1..], userId)
  }

  /** The SELECT keeps exactly the owner's rows and the DELETE exactly the
      others'. */
  lemma {:induction false} SelectionMembers(rows: seq<Stat>, userId: int)
    ensures forall s :: s in RowsOf(rows, userId) <==> s in rows && s.userId == userId
    ensures forall s :: s in RowsNotOf(rows, userId) <==> s in rows && s.userId != userId
  {
    if |rows| > 0 {
      SelectionMembers(rows[1..], userId);
      assert rows == [rows[0]] + rows[1..];
    }
  }

  lemma {:induction false} RowsOfAppend(a: seq<Stat>, b: seq<Stat>, userId: int)
    ensures RowsOf(a + b, userId) == RowsOf(a, userId) + RowsOf(b, userId)
  {
    if |a| > 0 {
      assert (a + b)[1..] == a[1..] + b;
      RowsOfAppend(a[1..], b, userId);
    } else {
      assert a + b == b;
    }
  }

  /** Deleting one user's rows empties that user's selection and leaves every
      other user's selection, order included, as it was. */
  lemma {:induction false} RowsOfAfterDelete(rows: seq<Stat>, deleted: int, userId: int)
    ensures RowsOf(RowsNotOf(rows, deleted), userId) == if userId == deleted then [] else RowsOf(rows, userId)
  {
    if |rows| > 0 {
      RowsOfAfterDelete(rows[1..], deleted, userId);
      var head := if rows[0].userId != deleted then [rows[0]] else [];
      RowsOfAppend(head, RowsNotOf(rows[1..], deleted), userId);
    }
  }

  /** Selecting the owner of a batch whose rows all belong to one user. */
  lemma {:induction false} RowsOfOwnedBatch(rows: seq<Stat>, owner: int, userId: int)
    requires forall i :: 0 <= i < |rows| ==> rows[i].userId == owner
    ensures RowsOf(rows, userId) == if userId == owner then rows else []
  {
    if |rows| > 0 {
      RowsOfOwnedBatch(rows[1..], owner, userId);
      assert rows == [rows[0]] + rows[1..];
    }
  }

  /** The loop over the input batch before the insert: every stat gets the
      owner's id and keeps every other field. */
  function SetUserId(stats: seq<Stat>, userId: int): (r: seq<Stat>)
    ensures |r| == |stats|
    ensures forall i :: 0 <= i < |r| ==> r[i].userId == userId && r[i].(userId := stats[i].userId) == stats[i]
  {
    seq(|stats|, i requires 0 <= i < |stats| => stats[i].(userId := userId))
  }

  /** The serial `id` the engine gives each inserted row, counting from `firstId`. */
  function AssignIds(rows: seq<Stat>, firstId: int): (r: seq<Stat>)
    ensures |r| == |rows|
    ensures forall i :: 0 <= i < |r| ==> r[i].id == firstId + i && r[i].(id := rows[i].id) == rows[i]
  {
    seq(|rows|, i requires 0 <= i < |rows| => rows[i].(id := firstId + i))
  }

  /** The read path: no side effect, one kind of error. */
  function GetStatsByUserID(db: Db, userId: int, fault: bool): (r: Result<seq<Stat>, Error>)
    ensures r.Failure? <==> fault
    ensures r.Failure? ==> r.error == InternalDatabase
    ensures r.Success? ==> r.value == RowsOf(db.stats, userId)
    ensures r.Success? ==> forall s :: s in r.value <==> s in db.stats && s.userId == userId
  {
    if fault then Failure(InternalDatabase)
    else
      SelectionMembers(db.stats, userId);
      Success(RowsOf(db.stats, userId))
  }

  // ---------------------------------------------------------------- transaction

  /** The step of UpdateStatsByUserID at which the driver reports an error. */
  datatype TxStep = BeginTx | DeleteOld | InsertNew | CommitTx | Reread

  /** An open transaction: the committed state it started from and its
      uncommitted working copy. */
  datatype Tx = Tx(committed: Db, working: Db)

  /** BeginTxx: committing or rolling back at once leaves the store as it was. */
  function Begin(db: Db): (tx: Tx)
    ensures Rollback(tx) == db && Commit(tx) == db
  {
    Tx(db, db)
  }

  /** The deferred tx.Rollback(): the working copy is discarded. */
  function Rollback(tx: Tx): Db {
    tx.committed
  }

  /** tx.Commit(): the working copy becomes the store. */
  function Commit(tx: Tx): Db {
    tx.working
  }

  /** The DELETE inside the transaction: the working copy loses exactly the
      user's rows, keeping the others in order; a rollback still restores the
      state the transaction began from. */
  function DeleteStats(tx: Tx, userId: int): (r: Tx)
    ensures Rollback(r) == Rollback(tx)
    ensures Commit(r).users == Commit(tx).users
    ensures RowsOf(Commit(r).stats, userId) == []
    ensures forall other :: other != userId ==> RowsOf(Commit(r).stats, other) == RowsOf(Commit(tx).stats, other)
  {
    var r := tx.(working := tx.working.(stats := RowsNotOf(tx.working.stats, userId)));
    RowsOfAfterDelete(tx.working.stats, userId, userId);
    forall other | other != userId
      ensures RowsOf(Commit(r).stats, other) == RowsOf(Commit(tx).stats, other)
    {
      RowsOfAfterDelete(tx.working.stats, userId, other);
    }
    r
  }

  /** The batched insert; the engine numbers the rows. The working copy gains
      the batch after its existing rows; a rollback still restores the state
      the transaction began from. */
  function InsertStats(tx: Tx, rows: seq<Stat>): (r: Tx)
    ensures Rollback(r) == Rollback(tx)
    ensures Commit(r).users == Commit(tx).users
    ensures Commit(r).stats == Commit(tx).stats + AssignIds(rows, Commit(tx).nextStatId)
    ensures Commit(r).nextStatId == Commit(tx).nextStatId + |rows|
  {
    var w := tx.working;
    tx.(working := w.(stats := w.stats + AssignIds(rows, w.nextStatId), nextStatId := w.nextStatId + |rows|))
  }

  /** Rolling back after any step of the replace restores the store the
      transaction began from; committing after the delete and the insert of
      the user's batch publishes exactly that batch as the user's rows. */
  lemma {:induction false} RollbackAndCommit(db: Db, userId: int, stats: seq<Stat>)
    ensures var deleted := DeleteStats(Begin(db), userId);
      && Rollback(Begin(db)) == db
      && Rollback(deleted) == db
      && Rollback(InsertStats(deleted, SetUserId(stats, userId))) == db
    ensures var published := Commit(InsertStats(DeleteStats(Begin(db), userId), SetUserId(stats, userId)));
      && published.users == db.users
      && RowsOf(published.stats, userId) == AssignIds(SetUserId(stats, userId), db.nextStatId)
  {
    var deleted := DeleteStats(Begin(db), userId);
    var batch := AssignIds(SetUserId(stats, userId), db.nextStatId);
    RowsOfAppend(Commit(deleted).stats, batch, userId);
    RowsOfOwnedBatch(batch, userId, userId);
  }

  /** Replace a user's stored statistics: begin, delete the old rows, tag and
      insert the new ones, commit, then re-read. A failure up to and including
      the commit rolls back; a failure of the re-read comes after the commit. */
  function UpdateStatsByUserID(db: Db, userId: int, stats: seq<Stat>, fault: Option<TxStep>): (out: Outcome<seq<Stat>>)
    ensures out.result.Success? <==> fault.None?
    ensures out.result.Failure? ==> out.result.error == InternalDatabase
    ensures fault.Some? && fault.value != Reread ==> out.db == db
    ensures out.db.users == db.users
    ensures out.result.Success? ==> out.result == GetStatsByUserID(out.db, userId, false)
  {
    var begun := Begin(db);
    var deleted := DeleteStats(begun, userId);
    var inserted := InsertStats(deleted, SetUserId(stats, userId));
    match fault
    case None =>
      var committed := Commit(inserted);
      Outcome(committed, GetStatsByUserID(committed, userId, false))
    case Some(BeginTx) => Outcome(db, Failure(InternalDatabase))
    case Some(DeleteOld) => Outcome(Rollback(begun), Failure(InternalDatabase))
    case Some(InsertNew) => Outcome(Rollback(deleted), Failure(InternalDatabase))
    case Some(CommitTx) => Outcome(Rollback(inserted), Failure(InternalDatabase))
    case Some(Reread) => Outcome(Commit(inserted), Failure(InternalDatabase))
  }

  /** The committed stats table: the other users' rows, then the new batch. */
  lemma CommittedTable(db: Db, userId: int, stats: seq<Stat>, fault: Option<TxStep>)
    requires fault.None? || fault == Some(Reread)
    ensures UpdateStatsByUserID(db, userId, stats, fault).db.stats
      == RowsNotOf(db.stats, userId) + AssignIds(SetUserId(stats, userId), db.nextStatId)
  {
  }

  /** Once the commit has happened (the call succeeded, or only the re-read
      failed) the user's rows are exactly the given batch, in order, each owned
      by the user and numbered by the engine, with every other field as given. */
  lemma SnapshotReplaced(db: Db, userId: int, stats: seq<Stat>, fault: Option<TxStep>)
    requires fault.None? || fault == Some(Reread)
    ensures var rows := RowsOf(UpdateStatsByUserID(db, userId, stats, fault).db.stats, userId);
      && |rows| == |stats|
      && forall i :: 0 <= i < |rows| ==> rows[i] == stats[i].(id := db.nextStatId + i, userId := userId)
  {
    CommittedRowsOfUser(db, userId, stats, fault);
    BatchRows(stats, userId, db.nextStatId);
  }

  /** After the commit the user's selection is exactly the inserted batch. */
  lemma CommittedRowsOfUser(db: Db, userId: int, stats: seq<Stat>, fault: Option<TxStep>)
    requires fault.None? || fault == Some(Reread)
    ensures RowsOf(UpdateStatsByUserID(db, userId, stats, fault).db.stats, userId)
      == AssignIds(SetUserId(stats, userId), db.nextStatId)
  {
    var inserted := AssignIds(SetUserId(stats, userId), db.nextStatId);
    CommittedTable(db, userId, stats, fault);
    RowsOfAppend(RowsNotOf(db.stats, userId), inserted, userId);
    RowsOfAfterDelete(db.stats, userId, userId);
    RowsOfOwnedBatch(inserted, userId, userId);
  }

  /** The inserted batch is the given one, owned by the user and numbered from
      `firstId`. */
  lemma BatchRows(stats: seq<Stat>, userId: int, firstId: int)
    ensures var rows := AssignIds(SetUserId(stats, userId), firstId);
      && |rows| == |stats|
      && forall i :: 0 <= i < |rows| ==> rows[i] == stats[i].(id := firstId + i, userId := userId)
  {
    var owned := SetUserId(stats, userId);
    var rows := AssignIds(owned, firstId);
    forall i | 0 <= i < |rows|
      ensures rows[i] == stats[i].(id := firstId + i, userId := userId)
    {
      assert rows[i].(id := owned[i].id) == owned[i];
      assert owned[i].(userId := stats[i].userId) == stats[i];
    }
  }

  /** Whatever happens, no other user's rows change. */
  lemma OtherUsersUntouched(db: Db, userId: int, stats: seq<Stat>, fault: Option<TxStep>, other: int)
    requires other != userId
    ensures RowsOf(UpdateStatsByUserID(db, userId, stats, fault).db.stats, other) == RowsOf(db.stats, other)
  {
    if fault.None? || fault == Some(Reread) {
      var inserted := AssignIds(SetUserId(stats, userId), db.nextStatId);
      CommittedTable(db, userId, stats, fault);
      RowsOfAppend(RowsNotOf(db.stats, userId), inserted, other);
      RowsOfAfterDelete(db.stats, userId, other);
      RowsOfOwnedBatch(inserted, userId, other);
    }
  }

  /** Of two successful replacements, the later one is what the user sees;
      nothing of the earlier batch survives. */
  lemma LastReplaceWins(db: Db, userId: int, first: seq<Stat>, second: seq<Stat>)
    ensures var mid := UpdateStatsByUserID(db, userId, first, None).db;
      var rows := RowsOf(UpdateStatsByUserID(mid, userId, second, None).db.stats, userId);
      && |rows| == |second|
      && forall i :: 0 <= i < |rows| ==> rows[i].(id := second[i].id, userId := second[i].userId) == second[i]
  {
    var mid := UpdateStatsByUserID(db, userId, first, None).db;
    SnapshotReplaced(mid, userId, second, None);
  }
}

=== FILE: telegram.dfy ===
/** The Telegram front end: command dispatch, the argument checks, each
    handler's mapping from service errors to human-readable text, the error
    reply, and the rule that schedules auto-deletion in supergroups. The front
    end sees the domain service through its interface, so the service arrives
    as a record of functions; `ServiceAt` instantiates it with the service
    model over a given store. Sending is external: it arrives as a function
    returning the new message's id or the failure's message. */
module Telegram {
  import opened Wrappers
  import opened Domain
  import Text
  import Store
  import Service
  import opened HumanErrors

  datatype Chat = Chat(id: int, kind: string)

  /** An incoming message with its command split off; `command` is "" when the
      text is not a command, `arguments` is "" when nothing follows it. */
  datatype Message = Message(messageId: int, chat: Chat, fromId: int, command: string, arguments: string)

  /** An update; only some updates carry a message. */
  datatype Update = Update(message: Option<Message>)

  /** A message the bot sends: HTML text, plain text, or a photo upload. */
  datatype Outgoing =
    | HtmlText(chatId: int, text: string)
    | PlainText(chatId: int, text: string)
    | Photo(chatId: int, name: string, bytes: Image)

  /** The domain service interface: one function per use case. */
  datatype ServiceApi = ServiceApi(
    createUser: int -> Result<string, Error>,
    saveNickname: (int, string) -> Result<string, Error>,
    refresh: int -> Result<string, Error>,
    me: (int, string) -> Result<string, Error>,
    trendImage: (int, string) -> Result<Image, Error>,
    stats: string -> Result<string, Error>)

  /** A call through the service interface, with its arguments. */
  datatype ServiceCall =
    | CreateUser(telegramId: int)
    | SaveNickname(telegramId: int, nickname: string)
    | RefreshStats(telegramId: int)
    | ShowMe(telegramId: int, chatType: string)
    | TrendImage(telegramId: int, htmlId: string)
    | ShowStats(nickname: string)

  /** The service model over one store, behind the interface. */
  function ServiceAt(db: Store.Db, be: Service.Backend): ServiceApi {
    ServiceApi(
      t => Service.GetCreateUserMessage(db, be, t).answer.result,
      (t, n) => Service.GetSaveNicknameMessage(db, be, t, n).answer.result,
      t => Service.GetRefreshMessage(db, be, t).answer.result,
      (t, c) => Service.GetMeMessage(db, be, t, c).result,
      (t, k) => Service.GetTrendImage(db, be, t, k).result,
      n => Service.GetStatsMessage(be, n).result)
  }

  /** The front end's world: the service and the send call. */
  datatype Env = Env(service: ServiceApi, send: Outgoing -> Result<int, string>)

  /** What a handler did: the service calls it made, the messages it tried to
      send, the id of the one that went out, and its error. */
  datatype Handled = Handled(
    calls: seq<ServiceCall>,
    outgoing: seq<Outgoing>,
    sent: Option<int>,
    err: Option<HrError>)

  // ---------------------------------------------------------------- dispatch

  datatype Handler = Start | Get | Save | Me | Refresh | Trend

  const Builtins: set<string> := {"start", "get", "save", "me", "refresh"}

  /** The command switch: the five built-in commands go to their handlers; any
      other command goes to the trend handler when it ends in "Trend" or
      contains "ByVehicle"; anything else runs nothing. */
  function Dispatch(command: string): (r: Option<Handler>)
    ensures command == "start" <==> r == Some(Start)
    ensures command == "get" <==> r == Some(Get)
    ensures command == "save" <==> r == Some(Save)
    ensures command == "me" <==> r == Some(Me)
    ensures command == "refresh" <==> r == Some(Refresh)
    ensures r == Some(Trend) <==>
      command !in Builtins && (Text.HasSuffix(command, "Trend") || Text.Contains(command, "ByVehicle"))
  {
    if command == "start" then Some(Start)
    else if command == "get" then Some(Get)
    else if command == "save" then Some(Save)
    else if command == "me" then Some(Me)
    else if command == "refresh" then Some(Refresh)
    else if Text.HasSuffix(command, "Trend") || Text.Contains(command, "ByVehicle") then Some(Trend)
    else None
  }

  /** The trend handler looks up the anchor id "#" + command. */
  function TrendKey(command: string): (key: string)
    ensures |key| == |command| + 1 && key[0] == '#' && key[1..] == command
  {
    "#" + command
  }

  /** The chart command of an anchor id "#" + name is "/" + name. */
  lemma AnchorBecomesCommand(name: string)
    ensures Service.ChartCommand("#" + name) == "/" + name
  {
    Text.ReplaceLeading(name, '#', '/');
    assert "#" + name == ['#'] + name;
    assert "/" + name == ['/'] + name;
  }

  /** A command ending in "Trend" or containing "ByVehicle" goes to the trend
      handler. */
  lemma TrendNamesDispatchToTrend(name: string)
    requires Text.HasSuffix(name, "Trend") || Text.Contains(name, "ByVehicle")
    ensures Dispatch(name) == Some(Trend)
  {
    if name in Builtins {
      ShortNamesAreNotTrend(name);
    }
  }

  /** The chart commands /me prints come back to the trend handler: an anchor
      id "#" + name becomes the command "/" + name, and a trend-named command
      looks up exactly that anchor id again. */
  lemma ChartCommandRoundTrip(name: string)
    requires Text.HasSuffix(name, "Trend") || Text.Contains(name, "ByVehicle")
    ensures Service.ChartCommand("#" + name) == "/" + name
    ensures Dispatch(name) == Some(Trend)
    ensures TrendKey(name) == "#" + name
  {
    AnchorBecomesCommand(name);
    TrendNamesDispatchToTrend(name);
  }

  /** No built-in command ends in "Trend" or contains "ByVehicle". */
  lemma ShortNamesAreNotTrend(name: string)
    requires name in Builtins
    ensures !Text.HasSuffix(name, "Trend") && !Text.Contains(name, "ByVehicle")
  {
    if Text.Contains(name, "ByVehicle") {
      var i := Text.ContainsImpliesOccurs(name, "ByVehicle");
    }
  }

  // ---------------------------------------------------------------- error texts

  const DatabaseText := "Ошибка при работе с базой! Обратитесь к администратору бота."
  const UnknownText := "Произошла неизвестная ошибка!"
  const SendFailedText := "Невозможно отправить сообщение!"
  const NoNicknameText := "Никнейм не передан!"
  const WargamingText := "Ошибка при обращении к Wargaming API!"
  const PlayerNotFoundText := "Игрок с данным никнеймом не найден!"
  const XvmText := "Ошибка при обращении к XVM!"
  const SaveFirstText := "Сначала сохрани свой никнейм!"
  const ChartNotFoundText := "График не найден!"

  /** A handler's error branches, checked in order. */
  type ErrorTable = seq<(Error, string)>

  /** The first branch testing `e` gives the text; with none, the generic text. */
  function Humanize(table: ErrorTable, e: Error): (r: string)
    ensures (forall i :: 0 <= i < |table| ==> table[i].0 != e) ==> r == UnknownText
    ensures forall i :: 0 <= i < |table| && table[i].0 == e && (forall j :: 0 <= j < i ==> table[j].0 != e) ==>
      r == table[i].1
  {
    if |table| == 0 then UnknownText
    else if table[0].0 == e then table[0].1
    else Humanize(table[1..], e)
  }

  const StartTable: ErrorTable := [(InternalDatabase, DatabaseText)]
  const GetTable: ErrorTable :=
    [(InternalWargaming, WargamingText), (PlayerNotFound, PlayerNotFoundText), (InternalXVM, XvmText)]
  const SaveTable: ErrorTable := GetTable + [(InternalDatabase, DatabaseText)]
  const RefreshTable: ErrorTable :=
    [(InternalXVM, XvmText), (NicknameNotSaved, SaveFirstText), (InternalDatabase, DatabaseText)]

  /** The /me and trend tables as the handlers write them: each tests the
      other's error. */
  const MeTableAsWritten: ErrorTable := [(TrendImageNotFound, ChartNotFoundText), (InternalDatabase, DatabaseText)]
  const TrendTableAsWritten: ErrorTable := [(NicknameNotSaved, SaveFirstText), (InternalDatabase, DatabaseText)]

  /** The corrected tables: each tests the error its own service call returns. */
  const MeTable: ErrorTable := [(NicknameNotSaved, SaveFirstText), (InternalDatabase, DatabaseText)]
  const TrendTable: ErrorTable := [(TrendImageNotFound, ChartNotFoundText), (InternalDatabase, DatabaseText)]

  // ---------------------------------------------------------------- handlers

  /** The shared tail of every handler: a service error becomes the handler's
      human-readable error and nothing is sent; otherwise the reply is sent,
      and a failed send becomes the send error. */
  function Respond(calls: seq<ServiceCall>, reply: Result<Outgoing, Error>, table: ErrorTable,
                   send: Outgoing -> Result<int, string>): (h: Handled)
    ensures h.calls == calls
    ensures reply.Failure? ==>
      && h.outgoing == [] && h.sent.None?
      && h.err == Some(NewHRError(Humanize(table, reply.error), DomainError(reply.error)))
    ensures reply.Success? ==>
      && h.outgoing == [reply.value]
      && (h.sent.Some? <==> send(reply.value).Success?)
      && (h.sent.Some? ==> h.sent.value == send(reply.value).value && h.err.None?)
      && (h.sent.None? ==> h.err == Some(NewHRError(SendFailedText, SendFailed(send(reply.value).error))))
  {
    match reply
    case Failure(e) => Handled(calls, [], None, Some(NewHRError(Humanize(table, e), DomainError(e))))
    case Success(out) =>
      match send(out)
      case Failure(msg) => Handled(calls, [out], None, Some(NewHRError(SendFailedText, SendFailed(msg))))
      case Success(id) => Handled(calls, [out], Some(id), None)
  }

  /** The refusal of /get and /save without a nickname. */
  const NoNickname := Handled([], [], None, Some(NewHRError(NoNicknameText, DomainError(BotBadRequest))))

  function AsHtml(chatId: int, r: Result<string, Error>): Result<Outgoing, Error> {
    match r
    case Failure(e) => Failure(e)
    case Success(text) => Success(HtmlText(chatId, text))
  }

  function HandleStart(env: Env, m: Message): (h: Handled)
    ensures h.calls == [CreateUser(m.fromId)]
    ensures var r := env.service.createUser(m.fromId);
      && (r.Failure? ==> h.err == Some(NewHRError(Humanize(StartTable, r.error), DomainError(r.error))))
      && (r.Success? ==> h.outgoing == [HtmlText(m.chat.id, r.value)])
  {
    Respond([CreateUser(m.fromId)], AsHtml(m.chat.id, env.service.createUser(m.fromId)), StartTable, env.send)
  }

  function HandleGet(env: Env, m: Message): (h: Handled)
    ensures m.arguments == "" ==> h == NoNickname
    ensures m.arguments != "" ==>
      var r := env.service.stats(m.arguments);
      && h.calls == [ShowStats(m.arguments)]
      && (r.Failure? ==> h.err == Some(NewHRError(Humanize(GetTable, r.error), DomainError(r.error))))
      && (r.Success? ==> h.outgoing == [HtmlText(m.chat.id, r.value)])
  {
    if m.arguments == "" then NoNickname
    else Respond([ShowStats(m.arguments)], AsHtml(m.chat.id, env.service.stats(m.arguments)), GetTable, env.send)
  }

  function HandleSave(env: Env, m: Message): (h: Handled)
    ensures m.arguments == "" ==> h == NoNickname
    ensures m.arguments != "" ==>
      var r := env.service.saveNickname(m.fromId, m.arguments);
      && h.calls == [SaveNickname(m.fromId, m.arguments)]
      && (r.Failure? ==> h.err == Some(NewHRError(Humanize(SaveTable, r.error), DomainError(r.error))))
      && (r.Success? ==> h.outgoing == [HtmlText(m.chat.id, r.value)])
  {
    if m.arguments == "" then NoNickname
    else
      var r := env.service.saveNickname(m.fromId, m.arguments);
      Respond([SaveNickname(m.fromId, m.arguments)], AsHtml(m.chat.id, r), SaveTable, env.send)
  }

  function HandleRefresh(env: Env, m: Message): (h: Handled)
    ensures h.calls == [RefreshStats(m.fromId)]
    ensures var r := env.service.refresh(m.fromId);
      && (r.Failure? ==> h.err == Some(NewHRError(Humanize(RefreshTable, r.error), DomainError(r.error))))
      && (r.Success? ==> h.outgoing == [HtmlText(m.chat.id, r.value)])
  {
    Respond([RefreshStats(m.fromId)], AsHtml(m.chat.id, env.service.refresh(m.fromId)), RefreshTable, env.send)
  }

  /** /me with a given error table; the chat type goes to the service, which
      decides whether chart commands and the vehicle section are shown. */
  function HandleMeWith(env: Env, m: Message, table: ErrorTable): (h: Handled)
    ensures h.calls == [ShowMe(m.fromId, m.chat.kind)]
    ensures var r := env.service.me(m.fromId, m.chat.kind);
      && (r.Failure? ==> h.err == Some(NewHRError(Humanize(table, r.error), DomainError(r.error))))
      && (r.Success? ==> h.outgoing == [HtmlText(m.chat.id, r.value)])
  {
    Respond([ShowMe(m.fromId, m.chat.kind)], AsHtml(m.chat.id, env.service.me(m.fromId, m.chat.kind)), table, env.send)
  }

  /** The trend handler with a given error table: the image of the anchor id
      "#" + command, uploaded under the command's name. */
  function HandleTrendWith(env: Env, m: Message, table: ErrorTable): (h: Handled)
    ensures h.calls == [TrendImage(m.fromId, TrendKey(m.command))]
    ensures var r := env.service.trendImage(m.fromId, TrendKey(m.command));
      && (r.Failure? ==> h.err == Some(NewHRError(Humanize(table, r.error), DomainError(r.error))))
      && (r.Success? ==> h.outgoing == [Photo(m.chat.id, m.command, r.value)])
  {
    var reply := match env.service.trendImage(m.fromId, TrendKey(m.command))
      case Failure(e) => Failure(e)
      case Success(img) => Success(Photo(m.chat.id, m.command, img));
    Respond([TrendImage(m.fromId, TrendKey(m.command))], reply, table, env.send)
  }

  /** /me as written: a missing saved nickname is reported as an unknown error. */
  function HandleMeAsWritten(env: Env, m: Message): (h: Handled)
    ensures env.service.me(m.fromId, m.chat.kind) == Failure(NicknameNotSaved) ==>
      h.err == Some(NewHRError(UnknownText, DomainError(NicknameNotSaved)))
  {
    HandleMeWith(env, m, MeTableAsWritten)
  }

  /** The trend handler as written: a missing chart is reported as an unknown
      error. */
  function HandleTrendAsWritten(env: Env, m: Message): (h: Handled)
    ensures env.service.trendImage(m.fromId, TrendKey(m.command)) == Failure(TrendImageNotFound) ==>
      h.err == Some(NewHRError(UnknownText, DomainError(TrendImageNotFound)))
  {
    HandleTrendWith(env, m, TrendTableAsWritten)
  }

  /** /me with the corrected table: each error the service returns for /me,
      but an unknown user, gets its own text. */
  function HandleMe(env: Env, m: Message): (h: Handled)
    ensures h == HandleMeWith(env, m, MeTable)
    ensures var r := env.service.me(m.fromId, m.chat.kind);
      && (r == Failure(NicknameNotSaved) ==> h.err.Some? && h.err.value.human == SaveFirstText)
      && (r == Failure(InternalDatabase) ==> h.err.Some? && h.err.value.human == DatabaseText)
  {
    assert Humanize(MeTable, NicknameNotSaved) == SaveFirstText;
    assert Humanize(MeTable, InternalDatabase) == DatabaseText;
    HandleMeWith(env, m, MeTable)
  }

  /** The trend handler with the corrected table. */
  function HandleTrend(env: Env, m: Message): (h: Handled)
    ensures h == HandleTrendWith(env, m, TrendTable)
    ensures var r := env.service.trendImage(m.fromId, TrendKey(m.command));
      && (r == Failure(TrendImageNotFound) ==> h.err.Some? && h.err.value.human == ChartNotFoundText)
      && (r == Failure(InternalDatabase) ==> h.err.Some? && h.err.value.human == DatabaseText)
  {
    assert Humanize(TrendTable, TrendImageNotFound) == ChartNotFoundText;
    assert Humanize(TrendTable, InternalDatabase) == DatabaseText;
    HandleTrendWith(env, m, TrendTable)
  }

  /** The errors the service's /me and trend use cases can return. */
  const MeErrors := {InternalDatabase, UserNotFound, NicknameNotSaved}
  const TrendErrors := {InternalDatabase, UserNotFound, TrendImageNotFound}

  /** The service model over any store fails /me and trend lookups only with
      those errors. */
  lemma ServiceAtErrors(db: Store.Db, be: Service.Backend, telegramId: int, arg: string)
    ensures var r := ServiceAt(db, be).me(telegramId, arg); r.Failure? ==> r.error in MeErrors
    ensures var r := ServiceAt(db, be).trendImage(telegramId, arg); r.Failure? ==> r.error in TrendErrors
  {
    var me := Service.GetMeMessage(db, be, telegramId, arg);
    var trend := Service.GetTrendImage(db, be, telegramId, arg);
  }

  /** Against a service whose /me fails only with its own errors, the
      as-written table's chart branch never fires, while the corrected table
      gives every error but an unknown user its own text. */
  lemma MeTablesOverMeErrors(env: Env, m: Message)
    requires var r := env.service.me(m.fromId, m.chat.kind); r.Failure? ==> r.error in MeErrors
    ensures var h := HandleMeAsWritten(env, m); h.err.Some? ==> h.err.value.human != ChartNotFoundText
    ensures var r := env.service.me(m.fromId, m.chat.kind);
      r.Failure? && r.error != UserNotFound ==>
        var h := HandleMe(env, m); h.err.Some? && h.err.value.human != UnknownText
  {
    var h := HandleMeAsWritten(env, m);
    var r := env.service.me(m.fromId, m.chat.kind);
    if r.Failure? {
      assert Humanize(MeTableAsWritten, NicknameNotSaved) == UnknownText;
      assert Humanize(MeTableAsWritten, UserNotFound) == UnknownText;
    }
  }

  /** Against a service whose trend lookup fails only with its own errors, the
      as-written table's nickname branch never fires, while the corrected table
      gives every error but an unknown user its own text. */
  lemma TrendTablesOverTrendErrors(env: Env, m: Message)
    requires var r := env.service.trendImage(m.fromId, TrendKey(m.command)); r.Failure? ==> r.error in TrendErrors
    ensures var h := HandleTrendAsWritten(env, m); h.err.Some? ==> h.err.value.human != SaveFirstText
    ensures var r := env.service.trendImage(m.fromId, TrendKey(m.command));
      r.Failure? && r.error != UserNotFound ==>
        var h := HandleTrend(env, m); h.err.Some? && h.err.value.human != UnknownText
  {
    var h := HandleTrendAsWritten(env, m);
    var r := env.service.trendImage(m.fromId, TrendKey(m.command));
    if r.Failure? {
      assert Humanize(TrendTableAsWritten, TrendImageNotFound) == UnknownText;
      assert Humanize(TrendTableAsWritten, UserNotFound) == UnknownText;
    }
  }

  /** A /me from a registered user with no saved account: as written the user
      is told an unknown error occurred; corrected, to save a nickname first. */
  lemma MeAsWrittenHidesNicknameNotSaved(db: Store.Db, be: Service.Backend, send: Outgoing -> Result<int, string>, m: Message)
    requires m.fromId in db.users && db.users[m.fromId].wargamingId.None?
    requires !be.faults.getUser && !be.faults.getStats
    ensures HandleMeAsWritten(Env(ServiceAt(db, be), send), m).err
      == Some(NewHRError(UnknownText, DomainError(NicknameNotSaved)))
    ensures HandleMe(Env(ServiceAt(db, be), send), m).err
      == Some(NewHRError(SaveFirstText, DomainError(NicknameNotSaved)))
  {
    var a := Service.GetMeMessage(db, be, m.fromId, m.chat.kind);
    assert a.result == Failure(NicknameNotSaved);
  }

  /** A trend command for a chart the user has not stored: as written the user
      is told an unknown error occurred; corrected, that the chart was not found. */
  lemma TrendAsWrittenHidesMissingChart(db: Store.Db, be: Service.Backend, send: Outgoing -> Result<int, string>, m: Message)
    requires m.fromId in db.users
    requires forall s :: s in Store.RowsOf(db.stats, db.users[m.fromId].id) ==> s.htmlId != TrendKey(m.command)
    requires !be.faults.getUser && !be.faults.getStats
    ensures HandleTrendAsWritten(Env(ServiceAt(db, be), send), m).err
      == Some(NewHRError(UnknownText, DomainError(TrendImageNotFound)))
    ensures HandleTrend(Env(ServiceAt(db, be), send), m).err
      == Some(NewHRError(ChartNotFoundText, DomainError(TrendImageNotFound)))
  {
    var a := Service.GetTrendImage(db, be, m.fromId, TrendKey(m.command));
    assert a.result == Failure(TrendImageNotFound);
  }

  /** Runs the handler the command dispatches to, with the corrected /me and
      trend tables; nothing when the command dispatches nowhere. */
  function RunHandler(env: Env, m: Message): (h: Handled)
    ensures Dispatch(m.command).None? ==> h == Handled([], [], None, None)
    ensures (m.command == "get" || m.command == "save") && m.arguments == "" ==> h == NoNickname
    ensures m.command == "start" ==> h.calls == [CreateUser(m.fromId)]
    ensures m.command == "get" && m.arguments != "" ==> h.calls == [ShowStats(m.arguments)]
    ensures m.command == "save" && m.arguments != "" ==> h.calls == [SaveNickname(m.fromId, m.arguments)]
    ensures m.command == "me" ==> h.calls == [ShowMe(m.fromId, m.chat.kind)]
    ensures m.command == "refresh" ==> h.calls == [RefreshStats(m.fromId)]
    ensures Dispatch(m.command) == Some(Trend) ==> h.calls == [TrendImage(m.fromId, "#" + m.command)]
  {
    match Dispatch(m.command)
    case None => Handled([], [], None, None)
    case Some(Start) => HandleStart(env, m)
    case Some(Get) => HandleGet(env, m)
    case Some(Save) => HandleSave(env, m)
    case Some(Me) => HandleMe(env, m)
    case Some(Refresh) => HandleRefresh(env, m)
    case Some(Trend) => HandleTrend(env, m)
  }

  // ---------------------------------------------------------------- error reply and routing

  /** An error a handler may hand back: a human-readable one, or any other. */
  datatype HandlerError = Readable(e: HrError) | Opaque(message: string)

  datatype Reported = Reported(outgoing: seq<Outgoing>, sent: Option<int>)

  /** The error reply: only a human-readable error is shown, as plain text in
      the update's chat; a missing update or error sends nothing. */
  function ErrorReply(update: Option<Message>, err: Option<HandlerError>, send: Outgoing -> Result<int, string>): (r: Reported)
    ensures update.None? || err.None? || err.value.Opaque? ==> r == Reported([], None)
    ensures update.Some? && err.Some? && err.value.Readable? ==>
      var out := PlainText(update.value.chat.id, Human(err.value.e));
      && r.outgoing == [out]
      && (r.sent.Some? <==> send(out).Success?)
      && (r.sent.Some? ==> r.sent.value == send(out).value)
  {
    if update.None? || err.None? then Reported([], None)
    else match err.value
      case Opaque(_) => Reported([], None)
      case Readable(e) =>
        var out := PlainText(update.value.chat.id, Human(e));
        match send(out)
        case Failure(_) => Reported([out], None)
        case Success(id) => Reported([out], Some(id))
  }

  /** The two messages removed after the delay: the user's and the bot's reply. */
  datatype Deletion = Deletion(chatId: int, requestId: int, replyId: int)

  datatype Routed = Routed(calls: seq<ServiceCall>, outgoing: seq<Outgoing>, sent: Option<int>, deletion: Option<Deletion>)

  const Supergroup := "supergroup"

  /** What follows a handler: its error, if any, is reported to the chat, and
      in a supergroup a message that went out is scheduled for deletion
      together with the user's message. */
  function Conclude(m: Message, h: Handled, send: Outgoing -> Result<int, string>): (r: Routed)
    ensures r.calls == h.calls
    ensures h.err.None? ==> r.outgoing == h.outgoing && r.sent == h.sent
    ensures h.err.Some? ==> r.outgoing == h.outgoing + [PlainText(m.chat.id, h.err.value.human)]
    ensures h.err.Some? ==> (r.sent.Some? <==> send(PlainText(m.chat.id, h.err.value.human)).Success?)
    ensures r.deletion.Some? <==> m.chat.kind == Supergroup && r.sent.Some?
    ensures r.deletion.Some? ==> r.deletion.value == Deletion(m.chat.id, m.messageId, r.sent.value)
  {
    var rep := if h.err.Some? then ErrorReply(Some(m), Some(Readable(h.err.value)), send)
               else Reported([], h.sent);
    var deletion := if m.chat.kind == Supergroup && rep.sent.Some?
                    then Some(Deletion(m.chat.id, m.messageId, rep.sent.value)) else None;
    Routed(h.calls, h.outgoing + rep.outgoing, rep.sent, deletion)
  }

  /** Handling one update: updates without a message are ignored; otherwise
      the dispatched handler runs and its outcome is concluded. */
  function Route(env: Env, u: Update): (r: Routed)
    ensures u.message.None? ==> r == Routed([], [], None, None)
    ensures u.message.Some? && Dispatch(u.message.value.command).None? ==> r == Routed([], [], None, None)
    ensures r.deletion.Some? <==> u.message.Some? && u.message.value.chat.kind == Supergroup && r.sent.Some?
    ensures r.deletion.Some? ==>
      r.deletion.value == Deletion(u.message.value.chat.id, u.message.value.messageId, r.sent.value)
  {
    if u.message.None? then Routed([], [], None, None)
    else Conclude(u.message.value, RunHandler(env, u.message.value), env.send)
  }

  /** /get and /save without a nickname call no service and answer only with
      the missing-nickname text. */
  lemma EmptyNicknameRefused(env: Env, m: Message)
    requires m.command == "get" || m.command == "save"
    requires m.arguments == ""
    ensures var r := Route(env, Update(Some(m)));
      r.calls == [] && r.outgoing == [PlainText(m.chat.id, NoNicknameText)]
  {
  }
}

=== FILE: text.dfy ===
/** The few pieces of Go's `strings` and `fmt` packages the bot relies on:
    prefix/suffix/substring tests, replacing the first occurrence of a character,
    lower-casing, and decimal formatting of integers. */
module Text {
  import opened Wrappers

  /** `p` is a prefix of `s` (strings.HasPrefix(s, p)). */
  predicate IsPrefix(p: string, s: string) {
    |p| <= |s| && s[..|p|] == p
  }

  lemma PrefixOfConcat(p: string, t: string)
    ensures IsPrefix(p, p + t)
  {
    assert (p + t)[..|p|] == p;
  }

  lemma SuffixOfConcat(s: string, t: string)
    ensures HasSuffix(s + t, t)
  {
    assert (s + t)[|s|..] == t;
  }

  /** strings.HasSuffix(s, suffix). */
  predicate HasSuffix(s: string, suffix: string) {
    |suffix| <= |s| && s[|s| - |suffix|..] == suffix
  }

  /** `sub` occurs in `s` starting at position `i`. */
  predicate OccursAt(s: string, sub: string, i: int) {
    0 <= i && i + |sub| <= |s| && s[i..i + |sub|] == sub
  }

  /** strings.Contains(s, sub), scanning from the left. */
  predicate Contains(s: string, sub: string)
    decreases |s|
  {
    IsPrefix(sub, s) || (|s| > 0 && Contains(s[1..], sub))
  }

  /** An occurrence at any position is found by the scan. */
  lemma {:induction false} OccursImpliesContains(s: string, sub: string, i: int)
    requires OccursAt(s, sub, i)
    ensures Contains(s, sub)
    decreases i
  {
    if i == 0 {
      assert s[..|sub|] == s[0..|sub|];
    } else {
      assert s[1..][i - 1..i - 1 + |sub|] == s[i..i + |sub|];
      OccursImpliesContains(s[1..], sub, i - 1);
    }
  }

  /** The scan only succeeds at a real occurrence. */
  lemma {:induction false} ContainsImpliesOccurs(s: string, sub: string) returns (i: int)
    requires Contains(s, sub)
    ensures OccursAt(s, sub, i)
    decreases |s|
  {
    if IsPrefix(sub, s) {
      i := 0;
    } else {
      var j := ContainsImpliesOccurs(s[1..], sub);
      assert s[j + 1..j + 1 + |sub|] == s[1..][j..j + |sub|];
      i := j + 1;
    }
  }

  /** The scan agrees with the positional definition of an occurrence. */
  lemma ContainsIffOccurs(s: string, sub: string)
    ensures Contains(s, sub) <==> exists i :: OccursAt(s, sub, i)
  {
    if Contains(s, sub) {
      var i := ContainsImpliesOccurs(s, sub);
    }
    forall i | OccursAt(s, sub, i) ensures Contains(s, sub) {
      OccursImpliesContains(s, sub, i);
    }
  }

  /** Position of the first `c` in `s`, if any. */
  function IndexOf(s: string, c: char): (r: Option<nat>)
    ensures r.Some? ==> r.value < |s| && s[r.value] == c
    ensures r.Some? ==> forall j :: 0 <= j < r.value ==> s[j] != c
    ensures r.None? <==> c !in s
  {
    if |s| == 0 then None
    else if s[0] == c then Some(0)
    else match IndexOf(s[1..], c)
      case None => None
      case Some(k) => Some(k + 1)
  }

  /** strings.Replace(s, [from], [to], 1): only the first occurrence of `from` changes. */
  function ReplaceFirst(s: string, from: char, to: char): (r: string)
    ensures |r| == |s|
    ensures from !in s ==> r == s
    ensures from in s ==> r == s[IndexOf(s, from).value := to]
  {
    if |s| == 0 then ""
    else if s[0] == from then [to] + s[1..]
    else [s[0]] + ReplaceFirst(s[1..], from, to)
  }

  /** Replacing the first `from` of a string that starts with `from` swaps the
      leading character and leaves the rest alone, even when `from` occurs again. */
  lemma ReplaceLeading(rest: string, from: char, to: char)
    ensures ReplaceFirst([from] + rest, from, to) == [to] + rest
  {
    assert ([from] + rest)[1..] == rest;
  }

  /** Lower-case of one character, for the Latin and Cyrillic letters the game's
      nicknames are written in (A-Z, the Cyrillic capitals, and Yo). */
  function LowerChar(c: char): (r: char)
    ensures 'A' <= c <= 'Z' ==> r as int == c as int + 32
    ensures '\U{0410}' <= c <= '\U{042F}' ==> r as int == c as int + 32
    ensures c == '\U{0401}' ==> r == '\U{0451}'
    ensures !('A' <= c <= 'Z' || '\U{0410}' <= c <= '\U{042F}' || c == '\U{0401}') ==> r == c
  {
    if 'A' <= c <= 'Z' || '\U{0410}' <= c <= '\U{042F}' then (c as int + 32) as char
    else if c == '\U{0401}' then '\U{0451}'
    else c
  }

  /** strings.ToLower, character by character. */
  function Lower(s: string): (r: string)
    ensures |r| == |s|
    ensures forall i :: 0 <= i < |s| ==> r[i] == LowerChar(s[i])
  {
    if |s| == 0 then "" else [LowerChar(s[0])] + Lower(s[1..])
  }

  /** Lower-casing a lower-cased string changes nothing. */
  lemma LowerIdempotent(s: string)
    ensures Lower(Lower(s)) == Lower(s)
  {
    forall i | 0 <= i < |s| ensures LowerChar(LowerChar(s[i])) == LowerChar(s[i]) {
    }
  }

  /** Equality after lower-casing both sides: the comparison FindPlayer uses. */
  predicate EqualFold(a: string, b: string) {
    Lower(a) == Lower(b)
  }

  /** Case-insensitive equality relates strings that differ only in letter case. */
  lemma EqualFoldIgnoresCase(s: string)
    ensures EqualFold(s, Lower(s))
  {
    LowerIdempotent(s);
  }

  predicate IsDigit(c: char) {
    '0' <= c <= '9'
  }

  predicate AllDigits(s: string) {
    forall i :: 0 <= i < |s| ==> IsDigit(s[i])
  }

  function DigitChar(d: nat): (c: char)
    requires d < 10
    ensures IsDigit(c) && c as int - '0' as int == d
  {
    ('0' as int + d) as char
  }

  /** Decimal digits of a natural number, most significant first, no leading zeros. */
  function NatToDecimal(n: nat): (s: string)
    ensures 1 <= |s| && AllDigits(s)
  {
    if n < 10 then [DigitChar(n)] else NatToDecimal(n / 10) + [DigitChar(n % 10)]
  }

  /** The number a string of decimal digits denotes. */
  function DecimalValue(s: string): nat
    requires AllDigits(s)
  {
    if |s| == 0 then 0
    else 10 * DecimalValue(s[..|s| - 1]) + (s[|s| - 1] as int - '0' as int)
  }

  /** Reading back the digits of `n` gives `n`. */
  lemma {:induction false} DecimalRoundTrip(n: nat)
    ensures DecimalValue(NatToDecimal(n)) == n
  {
    if n >= 10 {
      var s := NatToDecimal(n);
      assert s[..|s| - 1] == NatToDecimal(n / 10);
      DecimalRoundTrip(n / 10);
    }
  }

  /** fmt.Sprint of an int: decimal, with a leading '-' for negative numbers. */
  function IntToDecimal(n: int): (s: string)
    ensures 1 <= |s|
    ensures n >= 0 ==> AllDigits(s)
    ensures n < 0 ==> s[0] == '-' && AllDigits(s[1..])
  {
    if n < 0 then "-" + NatToDecimal(-n) else NatToDecimal(n)
  }

  /** Distinct integers print differently. */
  lemma IntToDecimalInjective(a: int, b: int)
    requires IntToDecimal(a) == IntToDecimal(b)
    ensures a == b
  {
    var s := IntToDecimal(a);
    if a < 0 && b < 0 {
      assert NatToDecimal(-a) == s[1..] == NatToDecimal(-b);
      DecimalRoundTrip(-a);
      DecimalRoundTrip(-b);
    } else if a >= 0 && b >= 0 {
      DecimalRoundTrip(a);
      DecimalRoundTrip(b);
    }
  }
}

=== FILE: wargaming.dfy ===
/** The Wargaming account-list client: FindPlayer resolves a typed nickname to
    the player's canonical nickname and account id. The HTTP exchange and the
    JSON decoding are external; their outcome arrives as a `Reply`. */
module Wargaming {
  import opened Wrappers
  import opened Domain
  import Text

  const AccountListUrl := "https://api.worldoftanks.ru/wot/account/list/"

  /** A GET request with its encoded query, parameters sorted by name. */
  datatype Request = Request(url: string, query: seq<(string, string)>)

  /** The response: a transport failure (including the timeout), a body that
      does not decode, or the envelope with its status and its `data`, which
      is present when it decodes as a list of players. */
  datatype Reply = TransportFailed | Undecodable | Envelope(status: string, players: Option<seq<Player>>)

  /** The request FindPlayer sent and what it returned. */
  datatype Lookup = Lookup(request: Request, result: Result<Player, Error>)

  /** The search request: the configured application id and the typed nickname. */
  function SearchRequest(applicationId: string, nickname: string): (req: Request)
    ensures req.url == AccountListUrl
    ensures |req.query| == 2
    ensures req.query[0] == ("application_id", applicationId)
    ensures req.query[1] == ("search", nickname)
  {
    Request(AccountListUrl, [("application_id", applicationId), ("search", nickname)])
  }

  /** Index of the first player whose nickname equals `nickname` ignoring case. */
  function FirstMatch(players: seq<Player>, nickname: string): (r: Option<nat>)
    ensures r.Some? ==> r.value < |players| && Text.EqualFold(players[r.value].nickname, nickname)
    ensures r.Some? ==> forall j :: 0 <= j < r.value ==> !Text.EqualFold(players[j].nickname, nickname)
    ensures r.None? ==> forall j :: 0 <= j < |players| ==> !Text.EqualFold(players[j].nickname, nickname)
  {
    if |players| == 0 then None
    else if Text.EqualFold(players[0].nickname, nickname) then Some(0)
    else match FirstMatch(players[1..], nickname)
      case None => None
      case Some(k) => Some(k + 1)
  }

  /** The reply was a well-formed "ok" envelope. */
  predicate Usable(reply: Reply) {
    reply.Envelope? && reply.status == "ok" && reply.players.Some?
  }

  /** FindPlayer: any transport, decoding or status problem is
      InternalWargaming (the status is checked before any matching); otherwise
      the first case-insensitive match, exactly as the API spells it, or
      PlayerNotFound. */
  function FindPlayer(applicationId: string, nickname: string, reply: Reply): (l: Lookup)
    ensures l.request == SearchRequest(applicationId, nickname)
    ensures !Usable(reply) ==> l.result == Failure(InternalWargaming)
    ensures Usable(reply) ==> l.result.Success? || l.result == Failure(PlayerNotFound)
    ensures Usable(reply) ==>
      (l.result == Failure(PlayerNotFound) <==>
        forall j :: 0 <= j < |reply.players.value| ==> !Text.EqualFold(reply.players.value[j].nickname, nickname))
    ensures l.result.Success? ==> Usable(reply)
    ensures l.result.Success? ==>
      exists i :: 0 <= i < |reply.players.value|
        && l.result.value == reply.players.value[i]
        && Text.EqualFold(reply.players.value[i].nickname, nickname)
        && forall j :: 0 <= j < i ==> !Text.EqualFold(reply.players.value[j].nickname, nickname)
  {
    var req := SearchRequest(applicationId, nickname);
    if !Usable(reply) then Lookup(req, Failure(InternalWargaming))
    else match FirstMatch(reply.players.value, nickname)
      case None => Lookup(req, Failure(PlayerNotFound))
      case Some(i) => Lookup(req, Success(reply.players.value[i]))
  }

  /** Typing a listed player's nickname in any letter case finds that player,
      or an earlier one spelled the same up to case. */
  lemma FindsTypedVariant(applicationId: string, players: seq<Player>, i: nat, typed: string)
    requires i < |players|
    requires Text.Lower(typed) == Text.Lower(players[i].nickname)
    ensures var l := FindPlayer(applicationId, typed, Envelope("ok", Some(players)));
      l.result.Success? && Text.EqualFold(l.result.value.nickname, players[i].nickname)
  {
    var l := FindPlayer(applicationId, typed, Envelope("ok", Some(players)));
    assert Text.EqualFold(players[i].nickname, typed);
    assert l.result != Failure(PlayerNotFound);
  }
}

=== FILE: wrappers.dfy ===
/** Failure-compatible wrappers shared by every module of the model.
    Go's `(value, error)` pairs become `Result`, its nil-able pointers `Option`. */
module Wrappers {

  /** A nil-able value: Go's `*string`, `*int` and nil pointers in general. */
  datatype Option<+T> = None | Some(value: T) {

    /** True if is None */
    predicate IsFailure() {
      None?
    }

    /** The value if present, the given default otherwise. */
    function GetOr(default: T): T {
      match this
      case Some(v) => v
      case None => default
    }
  }

  /** A Go `(value, err)` return where exactly one side is meaningful. */
  datatype Result<+R, +E> = Success(value: R) | Failure(error: E) {

    /** True if is Failure */
    predicate IsFailure() {
      Failure?
    }

    /** The error as an Option: None on success. */
    function ErrorOf(): Option<E> {
      match this
      case Success(_) => None
      case Failure(e) => Some(e)
    }
  }
}

=== FILE: xvm.dfy ===
/** The XVM stats adapter: scrape a player's stats page, and optionally drive a
    remote headless browser to screenshot each statistic's trend chart.
    The HTTP fetch, the HTML parse, the devtools discovery request and the
    browser run are external: their outcomes arrive as parameters, and the
    adapter records which of them it asked for in a call trace. */
module Xvm {
  import opened Wrappers
  import opened Domain
  import Text

  const PlayerPagePrefix := "https://stats.modxvm.com/ru/stat/players/"

  /** Browser viewport, tall enough for the vertically stacked charts. */
  const ViewportWidth := 1920
  const ViewportHeight := 7666

  /** The player's stats page: the scraper fetches it and the browser navigates to it. */
  function PlayerPageUrl(accountId: int): (url: string)
    ensures Text.IsPrefix(PlayerPagePrefix, url)
    ensures |url| > |PlayerPagePrefix|
  {
    PlayerPagePrefix + Text.IntToDecimal(accountId)
  }

  /** Different accounts have different pages, so a scrape and a capture for one
      account can never look at another player's page. */
  lemma PlayerPageUrlInjective(a: int, b: int)
    requires PlayerPageUrl(a) == PlayerPageUrl(b)
    ensures a == b
  {
    var n := |PlayerPagePrefix|;
    assert Text.IntToDecimal(a) == PlayerPageUrl(a)[n..];
    assert Text.IntToDecimal(b) == PlayerPageUrl(b)[n..];
    Text.IntToDecimalInjective(a, b);
  }

  /** One `.stats-summary a` element as the HTML parser reports it: its href
      attribute if it has one, and the texts of its `.h5` and `.h2` descendants. */
  datatype Anchor = Anchor(href: Option<string>, h5Text: string, h2Text: string)

  /** The outcome of fetching and parsing the stats page. */
  datatype Page = RequestFailed | Unparsable | Document(anchors: seq<Anchor>)

  /** The outcome of the devtools discovery request: a failure anywhere on the
      way (URL parse, host resolution, transport, JSON decoding), or the
      webSocketDebuggerUrl of each target listed. */
  datatype Discovery = DiscoveryFailed | Targets(urls: seq<string>)

  /** The remote browser as a run sees it: whether a session can be opened,
      whether navigation succeeds, the screenshot of each element id that
      becomes visible, and the index of the task, if any, during which the run
      errors regardless of the page (the shared ten-second deadline expiring,
      the connection dropping). */
  datatype Browser = Browser(reachable: bool, pageLoads: bool, visible: map<string, Image>, failsAt: Option<nat>)

  /** The chromedp actions the adapter queues. */
  datatype Task = EmulateViewport(width: int, height: int) | Navigate(url: string) | Screenshot(selector: string)

  /** The external requests the adapter makes, in order. */
  datatype Call = FetchPage(url: string) | DiscoverDebugger | RunTasks(debuggerUrl: string, tasks: seq<Task>)

  // ---------------------------------------------------------------- scraping

  /** The anchors the scrape keeps: those with an href, in document order. */
  function Linked(anchors: seq<Anchor>): (r: seq<Anchor>)
    ensures forall a :: a in r <==> a in anchors && a.href.Some?
    ensures |r| <= |anchors|
  {
    if |anchors| == 0 then []
    else (if anchors[0].href.Some? then [anchors[0]] else []) + Linked(anchors[1..])
  }

  lemma {:induction false} LinkedAppend(anchors: seq<Anchor>, a: Anchor)
    ensures Linked(anchors + [a]) == Linked(anchors) + (if a.href.Some? then [a] else [])
  {
    if |anchors| > 0 {
      assert (anchors + [a])[1..] == anchors[1..] + [a];
      LinkedAppend(anchors[1..], a);
    } else {
      assert [a][1..] == [];
    }
  }

  /** The statistic one linked anchor becomes. */
  function ToStat(a: Anchor): Stat
    requires a.href.Some?
  {
    Stat(0, 0, a.h5Text, Some(a.h2Text), a.href.value, [])
  }

  /** The scrape, as a reference: one statistic per linked anchor. */
  function Scraped(anchors: seq<Anchor>): seq<Stat> {
    var linked := Linked(anchors);
    seq(|linked|, k requires 0 <= k < |linked| => ToStat(linked[k]))
  }

  /** The `.Each` loop over the summary anchors, skipping those without href. */
  method ExtractStats(anchors: seq<Anchor>) returns (ss: seq<Stat>)
    ensures ss == Scraped(anchors)
    ensures |ss| == |Linked(anchors)|
    ensures forall k :: 0 <= k < |ss| ==>
      && Linked(anchors)[k].href == Some(ss[k].htmlId)
      && ss[k].name == Linked(anchors)[k].h5Text
      && ss[k].value == Some(Linked(anchors)[k].h2Text)
      && ss[k].image == []
  {
    ss := [];
    var i := 0;
    while i < |anchors|
      invariant 0 <= i <= |anchors|
      invariant ss == Scraped(anchors[..i])
    {
      var a := anchors[i];
      assert anchors[..i + 1] == anchors[..i] + [a];
      LinkedAppend(anchors[..i], a);
      if a.href.Some? {
        ss := ss + [ToStat(a)];
      }
      i := i + 1;
    }
    assert anchors[..i] == anchors;
  }

  // ---------------------------------------------------------------- capture plan

  /** The task list: viewport, navigation to the scraped page, then one
      element screenshot per statistic, in the statistics' order. */
  method BuildTasks(accountId: int, ss: seq<Stat>) returns (tasks: seq<Task>)
    ensures |tasks| == 2 + |ss|
    ensures tasks[0] == EmulateViewport(ViewportWidth, ViewportHeight)
    ensures tasks[1] == Navigate(PlayerPageUrl(accountId))
    ensures forall i :: 0 <= i < |ss| ==> tasks[i + 2] == Screenshot(ss[i].htmlId)
  {
    tasks := [EmulateViewport(ViewportWidth, ViewportHeight), Navigate(PlayerPageUrl(accountId))];
    var i := 0;
    while i < |ss|
      invariant 0 <= i <= |ss|
      invariant |tasks| == 2 + i
      invariant tasks[0] == EmulateViewport(ViewportWidth, ViewportHeight)
      invariant tasks[1] == Navigate(PlayerPageUrl(accountId))
      invariant forall j :: 0 <= j < i ==> tasks[j + 2] == Screenshot(ss[j].htmlId)
    {
      tasks := tasks + [Screenshot(ss[i].htmlId)];
      i := i + 1;
    }
  }

  /** The devtools target rule: exactly one target, whose URL is used. */
  function DebuggerUrl(d: Discovery): (r: Result<string, Error>)
    ensures r.Success? <==> d.Targets? && |d.urls| == 1
    ensures r.Success? ==> r.value == d.urls[0]
    ensures r.Failure? ==> r.error == InternalXVM
  {
    match d
    case DiscoveryFailed => Failure(InternalXVM)
    case Targets(urls) => if |urls| != 1 then Failure(InternalXVM) else Success(urls[0])
  }

  // ---------------------------------------------------------------- browser run

  /** Whether one task can complete in this browser, apart from the failure
      point. */
  predicate Completes(b: Browser, t: Task) {
    match t
    case EmulateViewport(_, _) => true
    case Navigate(_) => b.pageLoads
    case Screenshot(sel) => sel in b.visible
  }

  /** The run errors while performing one of the `n` tasks numbered from `at`. */
  predicate InterruptedWithin(b: Browser, at: nat, n: nat) {
    b.failsAt.Some? && at <= b.failsAt.value < at + n
  }

  /** chromedp.Run after the session is open: the tasks in order, numbered from
      `at`, stopping at the first that fails; the screenshots taken, in order.
      It yields images exactly when no task is interrupted and every task can
      complete. */
  function Perform(b: Browser, tasks: seq<Task>, at: nat): (r: Option<seq<Image>>)
    ensures r.Some? <==> !InterruptedWithin(b, at, |tasks|) && forall i :: 0 <= i < |tasks| ==> Completes(b, tasks[i])
    decreases |tasks|
  {
    if |tasks| == 0 then Some([])
    else if b.failsAt == Some(at) then None
    else
      var rest := Perform(b, tasks[1..], at + 1);
      assert (forall i :: 0 <= i < |tasks| ==> Completes(b, tasks[i]))
        <==> Completes(b, tasks[0]) && forall i :: 0 <= i < |tasks[1..]| ==> Completes(b, tasks[1..][i]) by {
        if Completes(b, tasks[0]) && forall i :: 0 <= i < |tasks[1..]| ==> Completes(b, tasks[1..][i]) {
          forall i | 0 <= i < |tasks| ensures Completes(b, tasks[i]) {
            if i > 0 {
              assert tasks[i] == tasks[1..][i - 1];
            }
          }
        }
      }
      match tasks[0]
      case EmulateViewport(_, _) => rest
      case Navigate(_) => if b.pageLoads then rest else None
      case Screenshot(sel) =>
        if sel !in b.visible then None
        else match rest
          case None => None
          case Some(shots) => Some([b.visible[sel]] + shots)
  }

  /** chromedp.Run: open the session, then perform the tasks from the first.
      It yields images exactly when the session opens, no task is interrupted
      and every task can complete. */
  function Execute(b: Browser, tasks: seq<Task>): (r: Option<seq<Image>>)
    ensures r.Some? <==> b.reachable && !InterruptedWithin(b, 0, |tasks|) && forall i :: 0 <= i < |tasks| ==> Completes(b, tasks[i])
  {
    if !b.reachable then None else Perform(b, tasks, 0)
  }

  /** Every statistic's element is visible in the browser. */
  predicate AllVisible(b: Browser, ss: seq<Stat>) {
    forall i :: 0 <= i < |ss| ==> ss[i].htmlId in b.visible
  }

  /** A run of screenshot tasks that is not interrupted yields each element's
      image in order. */
  lemma {:induction false} PerformScreenshots(b: Browser, tasks: seq<Task>, ss: seq<Stat>, at: nat)
    requires |tasks| == |ss|
    requires forall i :: 0 <= i < |ss| ==> tasks[i] == Screenshot(ss[i].htmlId)
    ensures Perform(b, tasks, at).Some? <==> !InterruptedWithin(b, at, |ss|) && AllVisible(b, ss)
    ensures Perform(b, tasks, at).Some? ==>
      |Perform(b, tasks, at).value| == |ss|
      && forall i :: 0 <= i < |ss| ==> Perform(b, tasks, at).value[i] == b.visible[ss[i].htmlId]
  {
    assert (forall i :: 0 <= i < |tasks| ==> Completes(b, tasks[i])) <==> AllVisible(b, ss) by {
      forall i | 0 <= i < |ss| ensures Completes(b, tasks[i]) <==> ss[i].htmlId in b.visible {
      }
    }
    if |ss| > 0 && Perform(b, tasks, at).Some? {
      PerformScreenshots(b, tasks[1..], ss[1..], at + 1);
      var shots := Perform(b, tasks, at).value;
      assert shots == [b.visible[ss[0].htmlId]] + Perform(b, tasks[1..], at + 1).value;
    }
  }

  /** A capture plan succeeds exactly when the browser is reachable, no task is
      interrupted, the page loads and every element is visible; no partial
      image set is produced. */
  lemma CapturePlan(b: Browser, tasks: seq<Task>, ss: seq<Stat>)
    requires |tasks| == 2 + |ss|
    requires tasks[0].EmulateViewport? && tasks[1].Navigate?
    requires forall i :: 0 <= i < |ss| ==> tasks[i + 2] == Screenshot(ss[i].htmlId)
    ensures Execute(b, tasks).Some? <==>
      b.reachable && !InterruptedWithin(b, 0, |tasks|) && b.pageLoads && AllVisible(b, ss)
    ensures Execute(b, tasks).Some? ==>
      |Execute(b, tasks).value| == |ss|
      && forall i :: 0 <= i < |ss| ==> Execute(b, tasks).value[i] == b.visible[ss[i].htmlId]
  {
    assert Completes(b, tasks[1]) == b.pageLoads;
    assert AllVisible(b, ss) ==> forall i :: 2 <= i < |tasks| ==> Completes(b, tasks[i]) by {
      if AllVisible(b, ss) {
        forall i | 2 <= i < |tasks| ensures Completes(b, tasks[i]) {
          assert tasks[(i - 2) + 2] == Screenshot(ss[i - 2].htmlId);
        }
      }
    }
    assert (forall i :: 0 <= i < |tasks| ==> Completes(b, tasks[i])) ==> AllVisible(b, ss) by {
      if forall i :: 0 <= i < |tasks| ==> Completes(b, tasks[i]) {
        forall i | 0 <= i < |ss| ensures ss[i].htmlId in b.visible {
          assert Completes(b, tasks[i + 2]);
        }
      }
    }
    if Execute(b, tasks).Some? {
      PerformScreenshots(b, tasks[2..], ss, 2);
      assert tasks[1..][1..] == tasks[2..];
      assert Perform(b, tasks, 0) == Perform(b, tasks[1..], 1);
      assert Perform(b, tasks[1..], 1) == Perform(b, tasks[2..], 2);
    }
  }

  // ---------------------------------------------------------------- GetStats

  /** The adapter's GetStats. Every failure is InternalXVM; without `withTrend`
      the devtools endpoint and the browser are never contacted. */
  method GetStats(accountId: int, withTrend: bool, page: Page, discovery: Discovery, browser: Browser)
    returns (calls: seq<Call>, r: Result<seq<Stat>, Error>)
    ensures |calls| >= 1 && calls[0] == FetchPage(PlayerPageUrl(accountId))
    ensures r.Failure? ==> r.error == InternalXVM
    ensures !page.Document? ==> calls == [FetchPage(PlayerPageUrl(accountId))] && r.Failure?
    ensures !withTrend ==> calls == [FetchPage(PlayerPageUrl(accountId))]
    ensures !withTrend && page.Document? ==> r == Success(Scraped(page.anchors))
    ensures withTrend && page.Document? ==> |calls| >= 2 && calls[1] == DiscoverDebugger
    ensures withTrend && page.Document? && DebuggerUrl(discovery).Failure? ==>
      calls == [FetchPage(PlayerPageUrl(accountId)), DiscoverDebugger] && r == Failure(InternalXVM)
    ensures withTrend && page.Document? && (discovery.DiscoveryFailed? || |discovery.urls| != 1) ==>
      && (forall k :: 0 <= k < |calls| ==> !calls[k].RunTasks?)
      && r == Failure(InternalXVM)
    ensures withTrend && page.Document? && DebuggerUrl(discovery).Success? ==>
      && |calls| == 3
      && calls[2].RunTasks?
      && calls[2].debuggerUrl == DebuggerUrl(discovery).value
      && |calls[2].tasks| == 2 + |Scraped(page.anchors)|
      && calls[2].tasks[1] == Navigate(calls[0].url)
      && (r.Success? <==>
            && browser.reachable
            && !InterruptedWithin(browser, 0, |calls[2].tasks|)
            && browser.pageLoads
            && AllVisible(browser, Scraped(page.anchors)))
    ensures withTrend && r.Success? ==>
      var scraped := Scraped(page.anchors);
      && |r.value| == |scraped|
      && forall i :: 0 <= i < |scraped| ==> r.value[i] == scraped[i].(image := browser.visible[scraped[i].htmlId])
  {
    var url := PlayerPageUrl(accountId);
    calls := [FetchPage(url)];
    if !page.Document? {
      return calls, Failure(InternalXVM);
    }
    var ss := ExtractStats(page.anchors);
    if withTrend {
      var tasks := BuildTasks(accountId, ss);
      calls := calls + [DiscoverDebugger];
      var debugger := DebuggerUrl(discovery);
      if debugger.Failure? {
        return calls, Failure(debugger.error);
      }
      calls := calls + [RunTasks(debugger.value, tasks)];
      CapturePlan(browser, tasks, ss);
      var shots := Execute(browser, tasks);
      if shots.None? {
        return calls, Failure(InternalXVM);
      }
      ss := seq(|ss|, i requires 0 <= i < |ss| => ss[i].(image := shots.value[i]));
    }
    r := Success(ss);
  }
}
